=== FILE: README.md ===
# command-builder, modelled in Dafny

`cb` is a shell helper that builds a command line one token at a time. The
tokens live in a saved state file. `cb add push`, `cb back` and `cb clear`
edit the list, and a bare word such as `cb git` is appended to it. `cb exec`
prints the finished line for a shell wrapper to run, then clears the list.
`cb ls` lists the arguments, subcommands and options available at the current
position in the command's definition. `cb op` lists only the options there.
A definition is a tree of subcommands with flags. It is read from a local
YAML cache, downloaded from a registry, or, as a last resort, scraped from
the command's own `--help` text.

The model has five modules:

- `Wrappers` (`wrappers.dfy`): the `Option` and `Result` types that stand
  for Go's nil results and error returns.

- `Strings` (`strings.dfy`): white space in the sense of Go's
  `unicode.IsSpace`, `strings.Fields`, `strings.Join` and their laws.
- `Definitions` (`definitions.dfy`): the definition tree
  (`internal/definitions/definitions.go`). It covers path lookup
  (`FindSubcommand`) and listing the cache directory (`ListDefinitions`).
- `Scraper` (`scraper.dfy`): turning `--help` text into a definition
  (`internal/scraper/scraper.go`). The flag regular expression
  `^\s+(-[a-zA-Z0-9],? )?(--[a-zA-Z0-9-]+)\s+(.*)$` is written out as an
  explicit matcher. It is proved sound and complete against a predicate that
  states the regular expression's structure. Line splitting follows
  `bufio.ScanLines`.
- `CommandBuilder` (`builder.dfy`): the `cb` program (`cmd/cb/main.go`). It
  covers verb dispatch over a mutable session `State`, the printed command
  line, the contexts `ls` and `op` choose, the greedy word wrap and column
  widths of the listing, and the order of the definition sources.

I/O is turned into parameters: the directory listing, the captured `--help`
output (or that running the command failed), the terminal size, whether the
scraper's save of a definition succeeded, and whether the definition manager
could be set up. The state file is not written: a `Step` reports what would
be saved to it and what would be printed, and every save is taken to succeed.

`cmd/cb/main.go` reads an `Args` field (a list of named arguments, each
optional or required) on definitions and subcommands. The declarations in
`internal/definitions/definitions.go` have no such field. The model follows
`main.go` and gives both `CommandDefinition` and `Subcommand` an `args`
field. `parseHelpOutput` never fills it.

## Model

| member | source | states |
|---|---|---|
| Strings.Fields | cmd/cb/main.go:290 | every field is nonempty and free of white space (that the fields are exactly the maximal runs is stated by FieldsOfSpaced and FieldsSplit) |
| Strings.FieldsAllSpace | cmd/cb/main.go:290 | text made only of white space, including the empty text, has no fields |
| Strings.FieldsOfSpaced | cmd/cb/main.go:290 | words interleaved with white space (at least one character between two words, any amount before the first and after the last) split back into exactly those words |
| Strings.FieldsSplit | cmd/cb/main.go:290 | every text is its fields interleaved with such white-space gaps, so with FieldsOfSpaced the fields are determined by the text |
| Strings.FieldsOfJoin | cmd/cb/main.go:85 | joining nonempty space-free words with single spaces and splitting again gives back the same words |
| Strings.JoinEnds | cmd/cb/main.go:85 | the joined string starts with the first element and ends with the last |
| Strings.JoinSnoc | cmd/cb/main.go:85 | joining a list with one more element appends the separator and that element |
| Definitions.FirstNamed | internal/definitions/definitions.go:95-100 | the index of the first child with the name: none before it matches, and none is returned exactly when no child matches |
| Definitions.Walk | internal/definitions/definitions.go:107-119 | a successful walk ends at a node named by the last token of the path |
| Definitions.Locate | internal/definitions/definitions.go:88-122 | the empty path names nothing; a found node carries the last token's name |
| Definitions.WalkAppend | internal/definitions/definitions.go:107-119 | walking p then q is walking p + q; a failed walk stays failed |
| Definitions.LocateSnoc | internal/definitions/definitions.go:107-121 | looking up p + [x] looks up x among the children of what p names, and fails when p fails |
| Definitions.LocateExtendMiss | internal/definitions/definitions.go:102-104 | once a path names nothing, every extension of it names nothing |
| Definitions.FirstChildNamed | internal/definitions/definitions.go:95-100 | the scanning loop stops at the first child with the name, the one FirstNamed specifies |
| Definitions.FindSubcommand | internal/definitions/definitions.go:88-122 | the two-level loop returns exactly what Locate specifies for every path |
| Definitions.CaseSensitiveExample | internal/definitions/definitions.go:96 | names compare exactly: "Clone" does not find "clone" |
| Definitions.NoBacktrackExample | internal/definitions/definitions.go:110-113 | with two children of the same name, only the first is walked into, and a miss below it is final |
| Definitions.ExtFrom | internal/definitions/definitions.go:80 | the extension is empty or a suffix of the name that starts with '.' |
| Definitions.Ext | internal/definitions/definitions.go:80 | `filepath.Ext` of a name is empty or a suffix of the name that starts with '.' |
| Definitions.ExtIsYaml | internal/definitions/definitions.go:80 | the extension is ".yaml" exactly when the name ends in ".yaml" |
| Definitions.DefinitionNames | internal/definitions/definitions.go:78-84 | the names the listing reports: at most one per directory entry |
| Definitions.DefinitionNamesSpec | internal/definitions/definitions.go:78-84 | a name is listed if and only if some non-directory entry ends in ".yaml" and the name is that entry with the suffix removed; there are never more names than entries |
| Definitions.ListDefinitions | internal/definitions/definitions.go:72-85 | the filtering loop yields DefinitionNames of the directory entries, in order |
| Definitions.ListingExample | internal/definitions/definitions.go:80-81 | "git.yaml" gives "git", ".yaml" gives "", and "b.YAML", "c.yml" and a directory "d.yaml" give nothing |
| Scraper.ScanLinesCount | internal/scraper/scraper.go:67-73 | `bufio.ScanLines` over the whole text: no lines exactly when the text is empty, and never more lines than characters, since each line but an unterminated last one uses up a newline |
| Scraper.LineEnd | internal/scraper/scraper.go:67 | the end of the first line: a newline, or the end of the text |
| Scraper.LineEndFirst | internal/scraper/scraper.go:67 | no newline comes before the end LineEnd finds, so it is the first one |
| Scraper.ScanLinesNoNewline | internal/scraper/scraper.go:67-73 | no scanned line holds a newline |
| Scraper.ScanLinesRoundTrip | internal/scraper/scraper.go:67-73 | for text without carriage returns, the lines joined by newlines, plus the final newline if there was one, give back the text |
| Scraper.SpaceEndSpec | internal/scraper/scraper.go:70 | the `\s` run SpaceEnd finds holds only white space and cannot be extended |
| Scraper.SpaceEndAt | internal/scraper/scraper.go:70 | any `\s` run that cannot be extended is the one SpaceEnd finds |
| Scraper.NameEndSpec | internal/scraper/scraper.go:70 | the `[a-zA-Z0-9-]` run NameEnd finds holds only name characters and cannot be extended |
| Scraper.NameEndAt | internal/scraper/scraper.go:70 | any run of name characters that cannot be extended is the one NameEnd finds |
| Scraper.ShortOptionEnd | internal/scraper/scraper.go:70 | the optional group `-[a-zA-Z0-9],? ` is either skipped or matched whole |
| Scraper.MatchFlagLine | internal/scraper/scraper.go:70-75 | the regular-expression match of one line: a reported long flag is longer than "--", and flag and description together are shorter than the line (the leading white space is never captured) |
| Scraper.MatchFlagLineSound | internal/scraper/scraper.go:70-74 | every match the matcher reports parses the line in the regular expression's structure; the description never starts with white space, because the greedy gap absorbs it |
| Scraper.MatchFlagLineComplete | internal/scraper/scraper.go:70-74 | every line the regular expression matches is matched, with the same long flag |
| Scraper.MatchFlagLineMaximal | internal/scraper/scraper.go:70-74 | a parse whose white-space gap runs up to a non-space character (or the end) is exactly the match: the long flag and the whole remaining description |
| Scraper.MatchFlagLineIff | internal/scraper/scraper.go:70-75 | the matcher succeeds if and only if the line matches the regular expression |
| Scraper.VerboseLineExample | internal/scraper/scraper.go:70-82 | "  -v, --verbose    Enable verbose output" gives flag "--verbose" with description "Enable verbose output" |
| Scraper.SampleLineExample | internal/scraper/scraper.go:68-70 | "  -f, --flag    Description" gives flag "--flag" with description "Description" |
| Scraper.NoLeadingSpace | internal/scraper/scraper.go:70 | no line that is empty or does not start with white space is a flag line |
| Scraper.NoLeadingSpaceExample | internal/scraper/scraper.go:70 | the line `--verbose x`, which has no leading white space, is not a flag line |
| Scraper.ValueSyntaxExample | internal/scraper/scraper.go:70 | "  --out=FILE x" does not match: '=' is not a name character, and the long flag must be followed by white space |
| Scraper.TwoSpacesExample | internal/scraper/scraper.go:70 | "  -v,  --verbose x" does not match: the short group ends in exactly one space, and the long flag must follow it directly |
| Scraper.SubcommandLineExample | internal/scraper/scraper.go:70 | a subcommand line such as "  init    Initialize" yields no flag |
| Scraper.LineFlags | internal/scraper/scraper.go:72-85 | at most one flag per line |
| Scraper.LineFlagsSnoc | internal/scraper/scraper.go:72-84 | one more line appends its flag when it matches, and nothing otherwise |
| Scraper.LineFlagsAppend | internal/scraper/scraper.go:72-85 | the flags of concatenated line lists are the concatenation of their flags |
| Scraper.LineFlagsSpec | internal/scraper/scraper.go:72-85 | every flag comes from a matching line, with type "string", and every matching line contributes its flag |
| Scraper.ParseHelpOutput | internal/scraper/scraper.go:60-88 | the definition carries the command's name and the fixed description, no subcommands or arguments, and exactly the flags of the matching lines in order; every field is fixed by the name and the text, so parsing is deterministic |
| Scraper.Scrape | internal/scraper/scraper.go:35-58 | fails when running the command reports any error, including a non-zero exit status whose output is discarded, or when the definition could not be saved; otherwise returns the parsed definition unchanged: the command's name, the generated description, no subcommands or arguments, and the flags of the matching lines in order |
| CommandBuilder.Render | cmd/cb/main.go:80-86 | an empty list prints "(empty)"; otherwise the printed line starts with the first token and ends with the last |
| CommandBuilder.RenderRoundTrip | cmd/cb/main.go:80-86 | the printed command line splits back into exactly the tokens when they are nonempty words without white space |
| CommandBuilder.Transition | cmd/cb/main.go:31-77 | every change to the list is saved; only `exec` saves something other than the list in memory, and it saves the empty list; the list only grows or shrinks at its end, or is cleared; `ls` and `op` change and save nothing |
| CommandBuilder.BackUndoesAdd | cmd/cb/main.go:46-57 | `back` after `add x` or `cd x` restores the list |
| CommandBuilder.BackUndoesImplicitAdd | cmd/cb/main.go:53-67 | `..` after an implicit add of one word that is not a verb restores the list |
| CommandBuilder.AddWithoutOperand | cmd/cb/main.go:46-50 | `add` or `cd` alone prints the usage line and neither changes nor saves the list |
| CommandBuilder.BackDropsLast | cmd/cb/main.go:53-57 | `..` and `back` remove exactly the last token and save, whatever follows them; on an empty list they change and save nothing |
| CommandBuilder.ClearAndImplicitAdd | cmd/cb/main.go:58-67 | `clear` empties and saves the list; a first word that is not a verb is appended together with all the remaining arguments |
| CommandBuilder.AddAppendsOperands | cmd/cb/main.go:46-52 | `add` or `cd` with operands appends exactly those operands (`args[1:]`) and saves the result |
| CommandBuilder.ExecPrintsAndClears | cmd/cb/main.go:88-99 | `exec` prints the joined command, which is what `printCommand` prints, and saves an empty list; on an empty list it prints and saves nothing |
| CommandBuilder.Dispatch | cmd/cb/main.go:36-77 | updating the session state in place has the effect, saved list and reply that Transition specifies |
| CommandBuilder.LsPath | cmd/cb/main.go:134-150 | a trailing token that starts with '-' is removed, and only it; a path that is empty or does not end in such a token is unchanged |
| CommandBuilder.LsContext | cmd/cb/main.go:120-170 | the context of the node Locate finds for LsPath of the path, or the root's context when it finds none (in particular for an empty path) |
| CommandBuilder.LsIgnoresTrailingFlag | cmd/cb/main.go:137-170 | `ls` shows the same context whether or not one flag follows a non-flag path |
| CommandBuilder.LsStripsOneFlag | cmd/cb/main.go:137-150 | with two trailing flags only the last is dropped; the other is looked up as a subcommand |
| CommandBuilder.LsTrailingFlagExample | cmd/cb/main.go:134-158 | `ls` after ["add", "-m"] shows the "add" node, as after ["add"] |
| CommandBuilder.HandleLs | cmd/cb/main.go:101-170 | a definition manager that could not be set up shows nothing; otherwise no tokens lists the cache; an unresolved root reports no definition for that root; otherwise the context LsContext selects is shown, or "nothing further" exactly when it is empty |
| CommandBuilder.OpContext | cmd/cb/main.go:327-339 | only the root token gives the root's flags; otherwise the context is missing exactly when the whole path names nothing, with no flag stripping |
| CommandBuilder.LsOpAgree | cmd/cb/main.go:134-170 | when the path does not end with a flag, `op`'s flags are those `ls` lists, and where `op` finds no context `ls` falls back to the root |
| CommandBuilder.OpStrictExample | cmd/cb/main.go:332-337 | `op` after ["add", "-m"] reports the context missing |
| CommandBuilder.HandleOp | cmd/cb/main.go:308-349 | a definition manager that could not be set up shows nothing; otherwise no tokens means no command context; an unresolved root reports no definition; a missing context, an empty flag list and a nonempty one are told apart as OpContext selects |
| CommandBuilder.MaxNameLen | cmd/cb/main.go:173-190 | the result bounds every argument, subcommand and flag name and is attained by one of them, or is 0 |
| CommandBuilder.DescWidth | cmd/cb/main.go:192-204 | the description column is at least 20 wide; it is 20, or it fills the terminal (80 when the size is unknown or not positive) beside the name column and 8 padding |
| CommandBuilder.WrapString | cmd/cb/main.go:287-306 | no lines exactly when there are no words; the lines hold the words in order; no line is empty; a line wider than the limit is one word; every line break is forced, because the next word would not have fitted |
| CommandBuilder.EnsureDefinition | cmd/cb/main.go:351-382 | the local cache, registry and scraper are tried in that order and each at most once; a local hit stops the search; the reload runs exactly after a successful download, and its outcome is then final; the scraper runs exactly when the cache and the registry both fail and it could be set up |

## Left out

- YAML parsing and writing, and the file system: `LoadDefinition`, `saveDefinition` and `NewManager` become parameters (the outcome of a load, whether a save succeeded, the directory entries, whether the definition manager could be set up). `ListDefinitions` receives the directory's entries, so the error `os.ReadDir` can return is not modelled.
- Running `command --help` and the registry download: `Scrape` and `EnsureDefinition` receive their outcomes as parameters. `internal/registry` and `internal/state` are not part of this model, beyond the state's token list and the fact that `Clear` saves an empty list.
- Output: the `tabwriter` layout, `printItem`'s "(Required)"/"(Optional)" suffix, section headings, the lines `printLocalDefinitions` prints, and messages to standard error are not modelled. `os.Exit` on a failed save is also left out. `HandleLs` and `HandleOp` return which report is shown, not its text.
- EnsureDefinition: the extra operand passed to the `Printf` before scraping has no effect on control flow and is not modelled.
- Definitions.FindSubcommand: returns the subcommand value rather than a pointer into the definition, so aliasing with the caller's tree is not modelled.
- Strings.Fields: white space is the ASCII part of `unicode.IsSpace`. Lengths count characters, not UTF-8 bytes, so widths in `WrapString` and `MaxNameLen` are exact only for ASCII text.
- The 64 KiB line limit of `bufio.Scanner`, past which Go stops reading, is not modelled.
- Scraper.MatchFlagLineComplete: for an arbitrary parse it states the long flag and bounds the description but does not fix it; `MatchFlagLineMaximal` fixes it for the parse whose gap is maximal.

=== FILE: builder.dfy ===
/**
 * The `cb` command: verb dispatch over the saved token list, rendering of the
 * command line, the context `ls` and `op` list, the greedy word wrap and
 * column arithmetic of the listing, and the order in which a definition is
 * looked for (local cache, registry, help scraper).
 */
module CommandBuilder {
  import opened Wrappers
  import opened Strings
  import opened Definitions
  import Scraper

  // ---------------------------------------------------------------------------
  // Rendering
  // ---------------------------------------------------------------------------

  /** What `printCommand` prints for an empty token list. */
  const EmptyCommand: string := "(empty)"

  /** `printCommand`: the tokens joined by single spaces, or "(empty)" when there are none. */
  function Render(parts: seq<string>): (r: string)
    ensures parts == [] ==> r == EmptyCommand
    ensures parts != [] ==> HasPrefix(r, parts[0]) && HasSuffix(r, parts[|parts| - 1])
  {
    if |parts| == 0 then EmptyCommand
    else
      JoinEnds(parts, " ");
      Join(parts, " ")
  }

  /**
   * The printed command line splits back into exactly the tokens, when every
   * token is a nonempty word without white space.
   */
  lemma RenderRoundTrip(parts: seq<string>)
    requires parts != []
    requires forall i :: 0 <= i < |parts| ==> parts[i] != [] && NoSpace(parts[i])
    ensures Fields(Render(parts)) == parts
  {
    FieldsOfJoin(parts);
  }

  // ---------------------------------------------------------------------------
  // Verb dispatch
  // ---------------------------------------------------------------------------

  /** What `printCommand`'s caller prints when `add` or `cd` has no operand. */
  const UsageText: string := "Usage: cb add <subcommand> [args...]"

  /** What an invocation shows, besides the token list it leaves behind. */
  datatype Reply =
    | Printed(line: string)  // one line on standard output
    | Listed                 // `ls` ran
    | OptionsListed          // `op` ran
    | Silent                 // nothing at all

  /**
   * The effect of one invocation: the token list in memory afterwards, what is
   * written to the state file (`None`: nothing), and the reply.
   */
  datatype Step = Step(parts: seq<string>, written: Option<seq<string>>, reply: Reply)

  /** A modified list is saved, then printed. */
  function Saved(parts: seq<string>): Step {
    Step(parts, Some(parts), Printed(Render(parts)))
  }

  /**
   * `main`'s dispatch on the first argument: `ls` and `op` list; `add`/`cd`
   * append their operands; `..`/`back` drop the last token; `clear` empties;
   * `exec` prints the command and clears the saved list; any other word is
   * appended together with the rest of the arguments.
   */
  function Transition(parts: seq<string>, args: seq<string>): (s: Step)
    ensures s.parts != parts ==> s.written == Some(s.parts)
    ensures s.written.Some? ==> s.written.value == s.parts || (args != [] && args[0] == "exec" && s.written.value == [])
    ensures s.parts == [] || parts <= s.parts || s.parts <= parts
    ensures args != [] && (args[0] == "ls" || args[0] == "op") ==> s.parts == parts && s.written.None?
  {
    if |args| == 0 then Step(parts, None, Printed(Render(parts)))
    else
      var verb := args[0];
      if verb == "ls" then Step(parts, None, Listed)
      else if verb == "op" then Step(parts, None, OptionsListed)
      else if verb == "add" || verb == "cd" then
        if |args| < 2 then Step(parts, None, Printed(UsageText)) else Saved(parts + args[1..])
      else if verb == ".." || verb == "back" then
        if |parts| > 0 then Saved(parts[..|parts| - 1]) else Step(parts, None, Printed(Render(parts)))
      else if verb == "clear" then Saved([])
      else if verb == "exec" then
        if |parts| == 0 then Step(parts, None, Silent) else Step(parts, Some([]), Printed(Join(parts, " ")))
      else Saved(parts + args)
  }

  /** The words `main` treats as verbs rather than as tokens to append. */
  predicate IsVerb(w: string) {
    w == "ls" || w == "op" || w == "add" || w == "cd" || w == ".." || w == "back" || w == "clear" || w == "exec"
  }

  /** `back` undoes `add x` (or `cd x`). */
  lemma BackUndoesAdd(parts: seq<string>, verb: string, x: string)
    requires verb == "add" || verb == "cd"
    ensures Transition(Transition(parts, [verb, x]).parts, ["back"]).parts == parts
  {
    assert [verb, x][1..] == [x];
    assert Transition(parts, [verb, x]).parts == parts + [x];
    assert (parts + [x])[..|parts|] == parts;
  }

  /** `..` undoes the implicit add of one word that is not a verb. */
  lemma BackUndoesImplicitAdd(parts: seq<string>, x: string)
    requires !IsVerb(x)
    ensures Transition(Transition(parts, [x]).parts, [".."]).parts == parts
  {
    assert Transition(parts, [x]).parts == parts + [x];
    assert (parts + [x])[..|parts|] == parts;
  }

  /** `add` or `cd` with operands appends exactly the operands and saves the result. */
  lemma AddAppendsOperands(parts: seq<string>, verb: string, operands: seq<string>)
    requires verb == "add" || verb == "cd"
    requires operands != []
    ensures Transition(parts, [verb] + operands) == Saved(parts + operands)
  {
    assert ([verb] + operands)[1..] == operands;
  }

  /**
   * `exec` prints what `printCommand` would and saves an empty list, leaving
   * the tokens in memory as they were; on an empty list it does nothing.
   */
  lemma ExecPrintsAndClears(parts: seq<string>, rest: seq<string>)
    ensures parts != [] ==> Transition(parts, ["exec"] + rest) == Step(parts, Some([]), Printed(Render(parts)))
    ensures parts == [] ==> Transition(parts, ["exec"] + rest) == Step(parts, None, Silent)
  {
  }

  /** `add` or `cd` without an operand prints the usage line; the list is neither changed nor saved. */
  lemma AddWithoutOperand(parts: seq<string>, verb: string)
    requires verb == "add" || verb == "cd"
    ensures Transition(parts, [verb]) == Step(parts, None, Printed(UsageText))
  {
  }

  /** `..` and `back` remove exactly the last token; on an empty list they change and save nothing. */
  lemma BackDropsLast(parts: seq<string>, verb: string, rest: seq<string>)
    requires verb == ".." || verb == "back"
    ensures parts != [] ==> Transition(parts, [verb] + rest) == Saved(parts[..|parts| - 1])
    ensures parts == [] ==> Transition(parts, [verb] + rest) == Step([], None, Printed(EmptyCommand))
  {
  }

  /** `clear` empties and saves the list; any other first word is appended together with all the rest. */
  lemma ClearAndImplicitAdd(parts: seq<string>, args: seq<string>)
    requires args != []
    ensures args[0] == "clear" ==> Transition(parts, args) == Saved([])
    ensures !IsVerb(args[0]) ==> Transition(parts, args) == Saved(parts + args)
  {
  }

  /** The session state: the tokens of the command under construction. */
  class State {
    var commandParts: seq<string>

    constructor (parts: seq<string>)
      ensures commandParts == parts
    {
      commandParts := parts;
    }
  }

  /**
   * `main` after loading the state: dispatches on the first argument,
   * changing the loaded token list in place, and reports what is saved and
   * what is shown.
   */
  method Dispatch(st: State, args: seq<string>) returns (written: Option<seq<string>>, reply: Reply)
    modifies st
    ensures st.commandParts == Transition(old(st.commandParts), args).parts
    ensures written == Transition(old(st.commandParts), args).written
    ensures reply == Transition(old(st.commandParts), args).reply
  {
    if |args| == 0 {
      return None, Printed(Render(st.commandParts));
    }
    var command := args[0];
    var stateModified := false;
    if command == "ls" {
      return None, Listed;
    } else if command == "op" {
      return None, OptionsListed;
    } else if command == "add" || command == "cd" {
      if |args| < 2 {
        return None, Printed(UsageText);
      }
      st.commandParts := st.commandParts + args[1..];
      stateModified := true;
    } else if command == ".." || command == "back" {
      if |st.commandParts| > 0 {
        st.commandParts := st.commandParts[..|st.commandParts| - 1];
        stateModified := true;
      }
    } else if command == "clear" {
      st.commandParts := [];
      stateModified := true;
    } else if command == "exec" {
      if |st.commandParts| == 0 {
        return None, Silent;
      }
      return Some([]), Printed(Join(st.commandParts, " "));
    } else {
      st.commandParts := st.commandParts + args;
      stateModified := true;
    }
    written := if stateModified then Some(st.commandParts) else None;
    reply := Printed(Render(st.commandParts));
  }

  // ---------------------------------------------------------------------------
  // Context selection for `ls` and `op`
  // ---------------------------------------------------------------------------

  /** What a listing shows at one node: its arguments, subcommands and flags. */
  datatype Context = Context(args: seq<Argument>, subcommands: seq<Subcommand>, flags: seq<Flag>)

  function RootContext(def: CommandDefinition): Context {
    Context(def.args, def.subcommands, def.flags)
  }

  function NodeContext(n: Subcommand): Context {
    Context(n.args, n.subcommands, n.flags)
  }

  /** A token the user typed as an option: it starts with '-'. */
  predicate IsFlagToken(t: string) {
    HasPrefix(t, "-")
  }

  /** The path `ls` looks up: the given path without its last token when that token is a flag. */
  function LsPath(path: seq<string>): (p: seq<string>)
    ensures |path| > 0 && IsFlagToken(path[|path| - 1]) ==> p == path[..|path| - 1]
    ensures (|path| == 0 || !IsFlagToken(path[|path| - 1])) ==> p == path
  {
    if |path| > 0 && IsFlagToken(path[|path| - 1]) then path[..|path| - 1] else path
  }

  /**
   * `handleLs`'s context: the node the (flag-stripped) path names, or the root
   * when the path is empty or names nothing.
   */
  function LsContext(def: CommandDefinition, path: seq<string>): (c: Context)
    ensures Locate(def, LsPath(path)).Some? ==> c == NodeContext(Locate(def, LsPath(path)).value)
    ensures Locate(def, LsPath(path)).None? ==> c == RootContext(def)
  {
    var p := LsPath(path);
    if |p| > 0 then
      match Locate(def, p)
      case Some(n) => NodeContext(n)
      case None => RootContext(def)
    else RootContext(def)
  }

  /** Only the single last token is examined: a trailing flag after a non-flag path is ignored. */
  lemma LsIgnoresTrailingFlag(def: CommandDefinition, path: seq<string>, flag: string)
    requires IsFlagToken(flag)
    requires path == [] || !IsFlagToken(path[|path| - 1])
    ensures LsContext(def, path + [flag]) == LsContext(def, path)
  {
    assert (path + [flag])[..|path|] == path;
  }

  /** With two trailing flags, only the last is dropped, so the other is looked up as a subcommand name. */
  lemma LsStripsOneFlag(def: CommandDefinition, p: seq<string>, f1: string, f2: string)
    requires IsFlagToken(f1) && IsFlagToken(f2)
    ensures LsContext(def, p + [f1, f2]) ==
      match Locate(def, p + [f1])
      case Some(n) => NodeContext(n)
      case None => RootContext(def)
  {
    assert (p + [f1, f2])[..|p| + 1] == p + [f1];
  }

  /**
   * `ls` at the path ["add", "-m"] over a root whose only subcommand is "add"
   * lists "add", as `ls` at ["add"] does.
   */
  lemma LsTrailingFlagExample(add: Subcommand, def: CommandDefinition)
    requires add.name == "add" && def.subcommands == [add]
    ensures LsContext(def, ["add", "-m"]) == NodeContext(add)
    ensures LsContext(def, ["add"]) == NodeContext(add)
  {
    assert IsFlagToken("-m");
    assert ["add", "-m"][..1] == ["add"];
    assert ChildNamed(def.subcommands, "add") == Some(add);
    assert "add"[0] == 'a';
    assert !IsFlagToken("add");
    assert ["add"][1..] == [];
    assert Locate(def, ["add"]) == Walk(add, []);
  }

  /** What `op` shows: flags, or that the path names no node. */
  datatype OpView = OpFlags(flags: seq<Flag>) | ContextNotFound

  /**
   * `handleOp`'s context: the root's flags when only the root token was typed,
   * otherwise the flags of the node the whole path names, with no stripping.
   */
  function OpContext(def: CommandDefinition, path: seq<string>): (v: OpView)
    ensures path == [] ==> v == OpFlags(def.flags)
    ensures path != [] ==> (v.ContextNotFound? <==> Locate(def, path).None?)
    ensures v.OpFlags? && path != [] ==> exists n :: Locate(def, path) == Some(n) && v.flags == n.flags
  {
    if |path| == 0 then OpFlags(def.flags)
    else match Locate(def, path)
      case None => ContextNotFound
      case Some(n) => OpFlags(n.flags)
  }

  /**
   * `ls` and `op` agree when the path does not end with a flag: `op`'s flags
   * are those `ls` lists, and where `op` finds no context `ls` shows the root.
   */
  lemma LsOpAgree(def: CommandDefinition, path: seq<string>)
    requires path == [] || !IsFlagToken(path[|path| - 1])
    ensures OpContext(def, path).OpFlags? ==> LsContext(def, path).flags == OpContext(def, path).flags
    ensures OpContext(def, path).ContextNotFound? ==> LsContext(def, path) == RootContext(def)
  {
  }

  /** `op` does not strip flags: ["add", "-m"] is not found although `ls` shows "add" there. */
  lemma OpStrictExample(add: Subcommand, def: CommandDefinition)
    requires add.name == "add" && add.subcommands == [] && def.subcommands == [add]
    ensures OpContext(def, ["add", "-m"]) == ContextNotFound
  {
    assert ChildNamed(def.subcommands, "add") == Some(add);
    assert ChildNamed(add.subcommands, "-m") == None;
  }

  /** What `ls` shows, given the outcome of resolving the root token's definition. */
  datatype LsReport =
    | LsManagerFailed               // the definition manager could not be set up: nothing is listed
    | LocalDefinitions              // no tokens yet: the cached definitions are listed
    | LsNoDefinition(root: string)  // "No definition found for '<root>'."
    | NothingFurther                // "No further options or subcommands available."
    | Listing(ctx: Context)         // arguments, subcommands and options of the context

  /**
   * `handleLs`: the guards in front of the listing, then the context `LsContext`
   * selects. `managerReady` is whether the definition manager could be set up.
   */
  function HandleLs(managerReady: bool, parts: seq<string>, resolved: Result<CommandDefinition, ResolveError>): (r: LsReport)
    ensures r.LsManagerFailed? <==> !managerReady
    ensures r.LocalDefinitions? <==> managerReady && parts == []
    ensures r.LsNoDefinition? <==> managerReady && parts != [] && resolved.Err?
    ensures r.LsNoDefinition? ==> r.root == parts[0]
    ensures r.Listing? ==> managerReady && parts != [] && resolved.Ok? && r.ctx == LsContext(resolved.value, parts[1..])
    ensures r.Listing? ==> r.ctx.args != [] || r.ctx.subcommands != [] || r.ctx.flags != []
    ensures r.NothingFurther? <==> managerReady && parts != [] && resolved.Ok? && LsContext(resolved.value, parts[1..]) == Context([], [], [])
  {
    if !managerReady then LsManagerFailed
    else if |parts| == 0 then LocalDefinitions
    else if resolved.Err? then LsNoDefinition(parts[0])
    else
      var ctx := LsContext(resolved.value, parts[1..]);
      if |ctx.args| == 0 && |ctx.subcommands| == 0 && |ctx.flags| == 0 then NothingFurther else Listing(ctx)
  }

  /** What `op` shows, given the outcome of resolving the root token's definition. */
  datatype OpReport =
    | OpManagerFailed               // the definition manager could not be set up: nothing is listed
    | NoCommandContext              // "No command context."
    | OpNoDefinition(root: string)  // "No definition found for '<root>'."
    | OpContextMissing              // "Current context not found definition."
    | NoOptions                     // "No options available."
    | Options(flags: seq<Flag>)     // one line per flag

  /**
   * `handleOp`: the guards in front of the flag list, then the flags `OpContext`
   * selects. `managerReady` is whether the definition manager could be set up.
   */
  function HandleOp(managerReady: bool, parts: seq<string>, resolved: Result<CommandDefinition, ResolveError>): (r: OpReport)
    ensures r.OpManagerFailed? <==> !managerReady
    ensures r.NoCommandContext? <==> managerReady && parts == []
    ensures r.OpNoDefinition? <==> managerReady && parts != [] && resolved.Err?
    ensures r.OpNoDefinition? ==> r.root == parts[0]
    ensures r.OpContextMissing? <==> managerReady && parts != [] && resolved.Ok? && OpContext(resolved.value, parts[1..]).ContextNotFound?
    ensures r.Options? ==> r.flags != [] && managerReady && parts != [] && resolved.Ok? && OpContext(resolved.value, parts[1..]) == OpFlags(r.flags)
    ensures r.NoOptions? ==> managerReady && parts != [] && resolved.Ok? && OpContext(resolved.value, parts[1..]) == OpFlags([])
  {
    if !managerReady then OpManagerFailed
    else if |parts| == 0 then NoCommandContext
    else if resolved.Err? then OpNoDefinition(parts[0])
    else match OpContext(resolved.value, parts[1..])
      case ContextNotFound => OpContextMissing
      case OpFlags(flags) => if |flags| == 0 then NoOptions else Options(flags)
  }

  // ---------------------------------------------------------------------------
  // Listing layout
  // ---------------------------------------------------------------------------

  /** The longest name among a context's arguments, subcommands and flags (0 when there are none). */
  method MaxNameLen(ctx: Context) returns (m: nat)
    ensures forall i :: 0 <= i < |ctx.args| ==> |ctx.args[i].name| <= m
    ensures forall i :: 0 <= i < |ctx.subcommands| ==> |ctx.subcommands[i].name| <= m
    ensures forall i :: 0 <= i < |ctx.flags| ==> |ctx.flags[i].name| <= m
    ensures m == 0
      || (exists i :: 0 <= i < |ctx.args| && |ctx.args[i].name| == m)
      || (exists i :: 0 <= i < |ctx.subcommands| && |ctx.subcommands[i].name| == m)
      || (exists i :: 0 <= i < |ctx.flags| && |ctx.flags[i].name| == m)
  {
    m := 0;
    for i := 0 to |ctx.args|
      invariant forall j :: 0 <= j < i ==> |ctx.args[j].name| <= m
      invariant m == 0 || exists j :: 0 <= j < i && |ctx.args[j].name| == m
    {
      if |ctx.args[i].name| > m {
        m := |ctx.args[i].name|;
      }
    }
    for i := 0 to |ctx.subcommands|
      invariant forall j :: 0 <= j < |ctx.args| ==> |ctx.args[j].name| <= m
      invariant forall j :: 0 <= j < i ==> |ctx.subcommands[j].name| <= m
      invariant m == 0
        || (exists j :: 0 <= j < |ctx.args| && |ctx.args[j].name| == m)
        || (exists j :: 0 <= j < i && |ctx.subcommands[j].name| == m)
    {
      if |ctx.subcommands[i].name| > m {
        m := |ctx.subcommands[i].name|;
      }
    }
    for i := 0 to |ctx.flags|
      invariant forall j :: 0 <= j < |ctx.args| ==> |ctx.args[j].name| <= m
      invariant forall j :: 0 <= j < |ctx.subcommands| ==> |ctx.subcommands[j].name| <= m
      invariant forall j :: 0 <= j < i ==> |ctx.flags[j].name| <= m
      invariant m == 0
        || (exists j :: 0 <= j < |ctx.args| && |ctx.args[j].name| == m)
        || (exists j :: 0 <= j < |ctx.subcommands| && |ctx.subcommands[j].name| == m)
        || (exists j :: 0 <= j < i && |ctx.flags[j].name| == m)
    {
      if |ctx.flags[i].name| > m {
        m := |ctx.flags[i].name|;
      }
    }
  }

  /** Terminal width used when the real one is unknown or not positive. */
  const FallbackWidth: int := 80

  /** The narrowest description column. */
  const MinDescWidth: int := 20

  /** Room reserved beside the name column: indent, tab and padding. */
  const ColumnPadding: int := 8

  /** The width the listing lays out for: the terminal's, or 80 when unknown or not positive. */
  function TerminalWidth(size: Option<int>): int {
    if size.None? || size.value <= 0 then FallbackWidth else size.value
  }

  /**
   * The description column's width: what is left of the terminal beside the
   * longest name and the padding, but never under 20.
   */
  function DescWidth(size: Option<int>, maxNameLen: nat): (w: int)
    ensures w >= MinDescWidth
    ensures w + maxNameLen + ColumnPadding >= TerminalWidth(size)
    ensures w == MinDescWidth || w + maxNameLen + ColumnPadding == TerminalWidth(size)
  {
    var width := TerminalWidth(size);
    var desc := width - (maxNameLen + ColumnPadding);
    if desc < MinDescWidth then MinDescWidth else desc
  }

  /**
   * `wrapString`: greedy word wrap. The lines hold the words of `s` in order,
   * separated by single spaces; no line is empty; a line wider than
   * `maxWidth` is a single word; and a line ends only where the next word
   * would not have fitted on it.
   */
  method WrapString(s: string, maxWidth: int) returns (lines: seq<string>)
    ensures lines == [] <==> Fields(s) == []
    ensures Join(lines, " ") == Join(Fields(s), " ")
    ensures forall i :: 0 <= i < |lines| ==> lines[i] != []
    ensures forall i :: 0 <= i < |lines| && |lines[i]| > maxWidth ==> lines[i] in Fields(s)
    ensures forall i :: 0 <= i < |lines| - 1 ==> |lines[i]| + 1 + |FirstWord(lines[i + 1])| > maxWidth
  {
    var words := Fields(s);
    lines := [];
    if |words| == 0 {
      return;
    }
    var currentLine := words[0];
    ghost var first := 0;
    WrapStart(words, maxWidth);
    for i := 1 to |words|
      invariant WrapInvariant(words, maxWidth, i, first, lines, currentLine)
    {
      var word := words[i];
      if |currentLine| + 1 + |word| > maxWidth {
        WrapBreak(words, maxWidth, i, first, lines, currentLine);
        lines := lines + [currentLine];
        currentLine := word;
        first := i;
      } else {
        WrapExtend(words, maxWidth, i, first, lines, currentLine);
        currentLine := currentLine + " " + word;
      }
    }
    WrapFinish(words, maxWidth, first, lines, currentLine);
    lines := lines + [currentLine];
  }

  /**
   * What the wrap loop keeps once it has consumed `words[..i]`: the finished
   * `lines` and the line being filled, `cur`, which starts with `words[first]`.
   */
  ghost predicate WrapInvariant(words: seq<string>, maxWidth: int, i: nat, first: nat, lines: seq<string>, cur: string) {
    && 0 <= first < i <= |words|
    && (forall j :: 0 <= j < |words| ==> NoSpace(words[j]))
    && cur != []
    && Join(lines + [cur], " ") == Join(words[..i], " ")
    && (forall j :: 0 <= j < |lines| ==> lines[j] != [])
    && (forall j :: 0 <= j < |lines| && |lines[j]| > maxWidth ==> lines[j] in words)
    && (|cur| > maxWidth ==> cur in words)
    && words[first] <= cur
    && (|cur| == |words[first]| || cur[|words[first]|] == ' ')
    && (forall j :: 0 <= j < |lines| - 1 ==> |lines[j]| + 1 + |FirstWord(lines[j + 1])| > maxWidth)
    && (|lines| > 0 ==> |lines[|lines| - 1]| + 1 + |words[first]| > maxWidth)
  }

  /** The loop starts with the first word as the line being filled. */
  lemma WrapStart(words: seq<string>, maxWidth: int)
    requires words != [] && forall j :: 0 <= j < |words| ==> words[j] != [] && NoSpace(words[j])
    ensures WrapInvariant(words, maxWidth, 1, 0, [], words[0])
  {
    assert words[..1] == [words[0]];
  }

  /** A word that does not fit closes the current line and starts the next. */
  lemma WrapBreak(words: seq<string>, maxWidth: int, i: nat, first: nat, lines: seq<string>, cur: string)
    requires WrapInvariant(words, maxWidth, i, first, lines, cur) && i < |words| && words[i] != []
    requires |cur| + 1 + |words[i]| > maxWidth
    ensures WrapInvariant(words, maxWidth, i + 1, i, lines + [cur], words[i])
  {
    var word := words[i];
    assert words[..i + 1] == words[..i] + [word];
    JoinSnoc(words[..i], word, " ");
    JoinSnoc(lines + [cur], word, " ");
    FirstWordOfLine(cur, words[first]);
    var lines' := lines + [cur];
    forall j | 0 <= j < |lines'| - 1
      ensures |lines'[j]| + 1 + |FirstWord(lines'[j + 1])| > maxWidth
    {
      if j < |lines| - 1 {
        assert lines'[j] == lines[j] && lines'[j + 1] == lines[j + 1];
      } else {
        assert lines'[j] == lines[|lines| - 1] && lines'[j + 1] == cur;
      }
    }
  }

  /** A word that fits is appended to the current line after one space. */
  lemma WrapExtend(words: seq<string>, maxWidth: int, i: nat, first: nat, lines: seq<string>, cur: string)
    requires WrapInvariant(words, maxWidth, i, first, lines, cur) && i < |words|
    requires |cur| + 1 + |words[i]| <= maxWidth
    ensures WrapInvariant(words, maxWidth, i + 1, first, lines, cur + " " + words[i])
  {
    WrapExtendJoin(words, i, lines, cur);
    ExtendKeepsFirstWord(cur, words[i], words[first]);
  }

  /** Appending the next word to the current line keeps the lines' words equal to the words consumed. */
  lemma WrapExtendJoin(words: seq<string>, i: nat, lines: seq<string>, cur: string)
    requires i < |words| && Join(lines + [cur], " ") == Join(words[..i], " ") && i > 0
    ensures Join(lines + [cur + " " + words[i]], " ") == Join(words[..i + 1], " ")
  {
    assert words[..i + 1] == words[..i] + [words[i]];
    JoinSnoc(words[..i], words[i], " ");
    JoinExtendLast(lines, cur, words[i], " ");
  }

  /** A line that starts with the word `w` still does after a space and another word are appended. */
  lemma ExtendKeepsFirstWord(cur: string, word: string, w: string)
    requires w <= cur && (|cur| == |w| || cur[|w|] == ' ')
    ensures w <= cur + " " + word
    ensures (cur + " " + word)[|w|] == ' '
  {
    var cur' := cur + " " + word;
    assert cur'[..|cur|] == cur;
    assert cur'[|cur|] == ' ';
  }

  /** Closing the last line gives the postcondition of `WrapString`. */
  lemma WrapFinish(words: seq<string>, maxWidth: int, first: nat, lines: seq<string>, cur: string)
    requires WrapInvariant(words, maxWidth, |words|, first, lines, cur)
    ensures Join(lines + [cur], " ") == Join(words, " ")
    ensures forall j :: 0 <= j < |lines + [cur]| ==> (lines + [cur])[j] != []
    ensures forall j :: 0 <= j < |lines + [cur]| && |(lines + [cur])[j]| > maxWidth ==> (lines + [cur])[j] in words
    ensures forall j :: 0 <= j < |lines + [cur]| - 1 ==>
      |(lines + [cur])[j]| + 1 + |FirstWord((lines + [cur])[j + 1])| > maxWidth
  {
    assert words[..|words|] == words;
    FirstWordOfLine(cur, words[first]);
    var out := lines + [cur];
    forall j | 0 <= j < |out| - 1
      ensures |out[j]| + 1 + |FirstWord(out[j + 1])| > maxWidth
    {
      if j < |lines| - 1 {
        assert out[j] == lines[j] && out[j + 1] == lines[j + 1];
      } else {
        assert out[j] == lines[|lines| - 1] && out[j + 1] == cur;
      }
    }
  }

  /** A line that starts with the word `w`, followed by nothing or by a space, has `w` as its first word. */
  lemma FirstWordOfLine(line: string, w: string)
    requires NoSpace(w) && w <= line
    requires |line| == |w| || line[|w|] == ' '
    ensures FirstWord(line) == w
  {
    var rest := line[|w|..];
    assert line == w + rest;
    FirstWordOf(w, rest);
  }

  // ---------------------------------------------------------------------------
  // Where a definition comes from
  // ---------------------------------------------------------------------------

  /** The sources `ensureDefinition` consults, in the order it consults them. */
  datatype Tier = LocalLoad | RegistryFetch | Reload | HelpScrape

  /** Position of a tier in the resolution order. */
  function Rank(t: Tier): nat {
    match t
    case LocalLoad => 0
    case RegistryFetch => 1
    case Reload => 2
    case HelpScrape => 3
  }

  /** Why loading a cached document fails: it is absent, or it does not parse. */
  datatype LoadError = NotFound | Malformed

  /** Why `ensureDefinition` fails. */
  datatype ResolveError =
    | ReloadFailed(cause: LoadError)   // the registry download could not be loaded back
    | ScraperInitFailed                // the scraper could not be set up
    | DefinitionUnavailable            // no tier produced a definition

  /** The outcome of `ensureDefinition` and the tiers it tried, in order. */
  datatype Resolution = Resolution(result: Result<CommandDefinition, ResolveError>, tried: seq<Tier>)

  /**
   * `ensureDefinition`, with the outcome of each tier given: the local load,
   * whether the registry fetch succeeded, the load of what it downloaded, whether
   * the scraper could be set up, and the scrape. The first tier that answers
   * decides; a successful fetch commits to the re-load's outcome.
   */
  function EnsureDefinition(
    local: Result<CommandDefinition, LoadError>,
    fetched: bool,
    reload: Result<CommandDefinition, LoadError>,
    scraperReady: bool,
    scraped: Result<CommandDefinition, Scraper.ScrapeError>): (r: Resolution)
    ensures |r.tried| > 0 && r.tried[0] == LocalLoad
    ensures forall i, j :: 0 <= i < j < |r.tried| ==> Rank(r.tried[i]) < Rank(r.tried[j])
    ensures local.Ok? ==> r.result == Ok(local.value) && r.tried == [LocalLoad]
    ensures RegistryFetch in r.tried <==> local.Err?
    ensures Reload in r.tried <==> local.Err? && fetched
    ensures local.Err? && fetched ==> HelpScrape !in r.tried
    ensures local.Err? && fetched ==> (r.result.Ok? <==> reload.Ok?) && (reload.Ok? ==> r.result.value == reload.value)
    ensures HelpScrape in r.tried <==> local.Err? && !fetched && scraperReady
    ensures HelpScrape in r.tried ==> (r.result.Ok? <==> scraped.Ok?) && (scraped.Ok? ==> r.result.value == scraped.value)
    ensures local.Err? && !fetched && (!scraperReady || scraped.Err?) ==> r.result.Err?
  {
    if local.Ok? then Resolution(Ok(local.value), [LocalLoad])
    else if fetched then
      match reload
      case Ok(def) => Resolution(Ok(def), [LocalLoad, RegistryFetch, Reload])
      case Err(e) => Resolution(Err(ReloadFailed(e)), [LocalLoad, RegistryFetch, Reload])
    else if !scraperReady then Resolution(Err(ScraperInitFailed), [LocalLoad, RegistryFetch])
    else match scraped
      case Ok(def) => Resolution(Ok(def), [LocalLoad, RegistryFetch, HelpScrape])
      case Err(_) => Resolution(Err(DefinitionUnavailable), [LocalLoad, RegistryFetch, HelpScrape])
  }
}

=== FILE: definitions.dfy ===
/**
 * The definition tree of a command and the two pieces of logic that work on it
 * without I/O: path lookup (`FindSubcommand`) and the name filter that turns
 * the cache directory's entries into command names (`ListDefinitions`).
 */
module Definitions {
  import opened Wrappers
  import opened Strings

  /** A command-line option. `valueType` is the document's `type` field ("string", "bool", ...). */
  datatype Flag = Flag(name: string, description: string, valueType: string)

  /** A positional argument of a node, as the command builder's listing reads it. */
  datatype Argument = Argument(name: string, description: string, required: bool)

  /** A nested command: a node of the tree, owning its children. */
  datatype Subcommand = Subcommand(
    name: string,
    description: string,
    subcommands: seq<Subcommand>,
    flags: seq<Flag>,
    args: seq<Argument>)

  /** The root of a definition document, one per root command name. */
  datatype CommandDefinition = CommandDefinition(
    name: string,
    description: string,
    subcommands: seq<Subcommand>,
    flags: seq<Flag>,
    args: seq<Argument>)

  // ---------------------------------------------------------------------------
  // Path lookup
  // ---------------------------------------------------------------------------

  /**
   * Index of the first child, in list order, whose name equals `name` exactly
   * (case-sensitive); `None` when no child has that name.
   */
  function FirstNamed(children: seq<Subcommand>, name: string): (r: Option<nat>)
    ensures r.Some? ==> r.value < |children| && children[r.value].name == name
    ensures r.Some? ==> forall j :: 0 <= j < r.value ==> children[j].name != name
    ensures r.None? <==> forall j :: 0 <= j < |children| ==> children[j].name != name
    decreases |children|
  {
    if |children| == 0 then None
    else if children[0].name == name then Some(0)
    else match FirstNamed(children[1..], name)
      case None => None
      case Some(i) => Some(i + 1)
  }

  /** The first child named `name`, if any. */
  function ChildNamed(children: seq<Subcommand>, name: string): Option<Subcommand> {
    match FirstNamed(children, name)
    case None => None
    case Some(i) => Some(children[i])
  }

  /**
   * Recursive first-match walk from a node: each token selects the first child
   * of the current node with that name; any miss makes the whole walk fail.
   */
  function Walk(node: Subcommand, path: seq<string>): (r: Option<Subcommand>)
    ensures r.Some? && path != [] ==> r.value.name == path[|path| - 1]
    decreases |path|
  {
    if path == [] then Some(node)
    else match ChildNamed(node.subcommands, path[0])
      case None => None
      case Some(child) => Walk(child, path[1..])
  }

  /**
   * The node a path names: the first token is matched against the root's
   * subcommands, the rest are walked from there. The empty path names no
   * subcommand (the root is not a `Subcommand`, so it is never the answer).
   */
  function Locate(def: CommandDefinition, path: seq<string>): (r: Option<Subcommand>)
    ensures path == [] ==> r.None?
    ensures r.Some? ==> path != [] && r.value.name == path[|path| - 1]
  {
    if path == [] then None
    else match ChildNamed(def.subcommands, path[0])
      case None => None
      case Some(child) => Walk(child, path[1..])
  }

  /** Walking `p + q` is walking `p`, then walking `q` from where `p` ended. */
  lemma {:induction false} WalkAppend(node: Subcommand, p: seq<string>, q: seq<string>)
    ensures Walk(node, p + q) == match Walk(node, p)
      case None => None
      case Some(n) => Walk(n, q)
    decreases |p|
  {
    if p == [] {
      assert p + q == q;
    } else {
      assert (p + q)[0] == p[0];
      assert (p + q)[1..] == p[1..] + q;
      match ChildNamed(node.subcommands, p[0]) {
        case None =>
        case Some(child) => WalkAppend(child, p[1..], q);
      }
    }
  }

  /**
   * Prefix closure: for a nonempty path `p`, `p + [x]` resolves exactly when
   * `p` resolves to a node that has a child named `x`, and then it is the first
   * such child.
   */
  lemma LocateSnoc(def: CommandDefinition, p: seq<string>, x: string)
    requires p != []
    ensures Locate(def, p + [x]) == match Locate(def, p)
      case None => None
      case Some(n) => ChildNamed(n.subcommands, x)
  {
    assert (p + [x])[0] == p[0];
    assert (p + [x])[1..] == p[1..] + [x];
    match ChildNamed(def.subcommands, p[0]) {
      case None =>
      case Some(child) =>
        WalkAppend(child, p[1..], [x]);
        assert [x][1..] == [];
        match Walk(child, p[1..]) {
          case None =>
          case Some(n) =>
            assert Walk(n, [x]) == match ChildNamed(n.subcommands, x)
              case None => None
              case Some(c) => Walk(c, []);
        }
    }
  }

  /** Failure is total: once a nonempty prefix fails to resolve, every extension of it fails too. */
  lemma LocateExtendMiss(def: CommandDefinition, p: seq<string>, q: seq<string>)
    requires p != [] && Locate(def, p).None?
    ensures Locate(def, p + q).None?
  {
    assert (p + q)[0] == p[0];
    assert (p + q)[1..] == p[1..] + q;
    match ChildNamed(def.subcommands, p[0]) {
      case None =>
      case Some(child) => WalkAppend(child, p[1..], q);
    }
  }

  /** Scan of one node's children for the first one named `name` (the inner loops of `FindSubcommand`). */
  method FirstChildNamed(children: seq<Subcommand>, name: string) returns (r: Option<Subcommand>)
    ensures r == ChildNamed(children, name)
  {
    r := None;
    var i := 0;
    while i < |children|
      invariant 0 <= i <= |children|
      invariant forall j :: 0 <= j < i ==> children[j].name != name
    {
      if children[i].name == name {
        r := Some(children[i]);
        return;
      }
      i := i + 1;
    }
  }

  /**
   * `FindSubcommand`: walks `path` down the tree with a loop over the tokens,
   * keeping the node reached so far. The answer is the one `Locate` gives.
   */
  method FindSubcommand(def: CommandDefinition, path: seq<string>) returns (r: Option<Subcommand>)
    ensures r == Locate(def, path)
  {
    if |path| == 0 {
      return None;
    }
    var current := FirstChildNamed(def.subcommands, path[0]);
    if current.None? {
      return None;
    }
    assert path[..1] == [path[0]];
    var k := 1;
    while k < |path|
      invariant 1 <= k <= |path|
      invariant current.Some? && current == Locate(def, path[..k])
    {
      var part := path[k];
      var next := FirstChildNamed(current.value.subcommands, part);
      LocateSnoc(def, path[..k], part);
      assert path[..k + 1] == path[..k] + [part];
      if next.None? {
        LocateExtendMiss(def, path[..k + 1], path[k + 1..]);
        assert path[..k + 1] + path[k + 1..] == path;
        return None;
      }
      current := next;
      k := k + 1;
    }
    assert path[..k] == path;
    r := current;
  }

  /** Matching is case-sensitive: a root whose only child is "clone" does not resolve ["Clone"]. */
  lemma CaseSensitiveExample()
    ensures Locate(CommandDefinition("git", "", [Subcommand("clone", "", [], [], [])], [], []), ["Clone"]).None?
    ensures Locate(CommandDefinition("git", "", [Subcommand("clone", "", [], [], [])], [], []), ["clone"]).Some?
  {
  }

  /**
   * No backtracking: with two children named "remote", only the first is
   * searched for "add", even though the second one has it.
   */
  lemma NoBacktrackExample()
    ensures
      var add := Subcommand("add", "", [], [], []);
      var def := CommandDefinition("git", "", [Subcommand("remote", "first", [], [], []),
                                               Subcommand("remote", "second", [add], [], [])], [], []);
      Locate(def, ["remote", "add"]).None?
  {
    var add := Subcommand("add", "", [], [], []);
    var first := Subcommand("remote", "first", [], [], []);
    var def := CommandDefinition("git", "", [first, Subcommand("remote", "second", [add], [], [])], [], []);
    assert ChildNamed(def.subcommands, "remote") == Some(first);
    assert ChildNamed(first.subcommands, "add") == None;
  }

  // ---------------------------------------------------------------------------
  // Listing the cache
  // ---------------------------------------------------------------------------

  /** One entry of the cache directory, as `os.ReadDir` reports it. */
  datatype DirEntry = DirEntry(name: string, isDir: bool)

  /** The extension of a definition document. */
  const DefinitionExt: string := ".yaml"

  /** `filepath.Ext` on `path[..i]`'s scan: the suffix of `path` from the last '.' before `i`, stopping at '/'. */
  function ExtFrom(path: string, i: nat): (e: string)
    requires i <= |path|
    ensures e == [] || (|e| <= |path| && e == path[|path| - |e|..] && e[0] == '.')
    decreases i
  {
    if i == 0 || path[i - 1] == '/' then ""
    else if path[i - 1] == '.' then path[i - 1..]
    else ExtFrom(path, i - 1)
  }

  /** `filepath.Ext`: the suffix starting at the final '.' of the last path element, or "". */
  function Ext(path: string): (e: string)
    ensures e == [] || (HasSuffix(path, e) && e[0] == '.')
  {
    ExtFrom(path, |path|)
  }

  /** The extension is ".yaml" exactly when the name ends in ".yaml" (case-sensitive). */
  lemma ExtIsYaml(name: string)
    ensures Ext(name) == DefinitionExt <==> HasSuffix(name, DefinitionExt)
  {
    if HasSuffix(name, DefinitionExt) {
      YamlSuffixExt(name);
    }
  }

  /** A name ending in ".yaml" has extension ".yaml": the scan passes "yaml" and stops at the dot. */
  lemma YamlSuffixExt(name: string)
    requires HasSuffix(name, DefinitionExt)
    ensures Ext(name) == DefinitionExt
  {
    var n := |name|;
    var t := name[n - 5..];
    assert t == ".yaml";
    assert name[n - 5] == t[0] && name[n - 4] == t[1] && name[n - 3] == t[2] && name[n - 2] == t[3] && name[n - 1] == t[4];
    ExtSkip(name, n);
    ExtSkip(name, n - 1);
    ExtSkip(name, n - 2);
    ExtSkip(name, n - 3);
    assert ExtFrom(name, n - 4) == name[n - 5..];
  }

  /** The scan of `filepath.Ext` moves past a character that is neither '.' nor '/'. */
  lemma ExtSkip(path: string, i: nat)
    requires 0 < i <= |path| && path[i - 1] != '.' && path[i - 1] != '/'
    ensures ExtFrom(path, i) == ExtFrom(path, i - 1)
  {
  }

  /** The test `ListDefinitions` applies to an entry. */
  predicate IsDefinitionFile(e: DirEntry) {
    !e.isDir && Ext(e.name) == DefinitionExt
  }

  /** The command name an entry stands for: its name without the 5-character extension. */
  function CommandName(e: DirEntry): string
    requires IsDefinitionFile(e)
  {
    ExtIsYaml(e.name);
    e.name[..|e.name| - 5]
  }

  /** The names `ListDefinitions` reports for `entries`, in entry order. */
  function DefinitionNames(entries: seq<DirEntry>): (names: seq<string>)
    ensures |names| <= |entries|
    decreases |entries|
  {
    if entries == [] then []
    else if !IsDefinitionFile(entries[|entries| - 1]) then DefinitionNames(entries[..|entries| - 1])
    else DefinitionNames(entries[..|entries| - 1]) + [CommandName(entries[|entries| - 1])]
  }

  /**
   * A name is listed exactly when some entry that is not a directory and whose
   * name ends in ".yaml" has that name minus the extension; at most one name
   * per entry.
   */
  lemma {:induction false} DefinitionNamesSpec(entries: seq<DirEntry>)
    ensures |DefinitionNames(entries)| <= |entries|
    ensures forall x :: x in DefinitionNames(entries) <==>
      exists i :: 0 <= i < |entries| && !entries[i].isDir && HasSuffix(entries[i].name, DefinitionExt)
                  && x == entries[i].name[..|entries[i].name| - 5]
    decreases |entries|
  {
    if entries != [] {
      var init, e := entries[..|entries| - 1], entries[|entries| - 1];
      DefinitionNamesSpec(init);
      ExtIsYaml(e.name);
      forall i | 0 <= i < |init| ensures init[i] == entries[i] { }
      forall x ensures x in DefinitionNames(entries) <==>
        exists i :: 0 <= i < |entries| && !entries[i].isDir && HasSuffix(entries[i].name, DefinitionExt)
                    && x == entries[i].name[..|entries[i].name| - 5]
      {
        if x in DefinitionNames(entries) && x !in DefinitionNames(init) {
          assert x == CommandName(e);
          assert entries[|entries| - 1] == e;
        }
      }
    }
  }

  /** `ListDefinitions` over a given directory listing: one loop that appends the name of each definition file. */
  method ListDefinitions(entries: seq<DirEntry>) returns (names: seq<string>)
    ensures names == DefinitionNames(entries)
  {
    names := [];
    for i := 0 to |entries|
      invariant names == DefinitionNames(entries[..i])
    {
      assert entries[..i + 1][..i] == entries[..i];
      if !entries[i].isDir && Ext(entries[i].name) == DefinitionExt {
        names := names + [entries[i].name[..|entries[i].name| - 5]];
      }
    }
    assert entries[..|entries|] == entries;
  }

  /** Directories, "b.YAML" and "c.yml" are skipped; ".yaml" stands for the empty name. */
  lemma ListingExample()
    ensures DefinitionNames([DirEntry("git.yaml", false), DirEntry("b.YAML", false), DirEntry("c.yml", false),
                             DirEntry(".yaml", false), DirEntry("d.yaml", true)]) == ["git", ""]
  {
    var e0, e1, e2, e3, e4 := DirEntry("git.yaml", false), DirEntry("b.YAML", false), DirEntry("c.yml", false),
                              DirEntry(".yaml", false), DirEntry("d.yaml", true);
    var es := [e0, e1, e2, e3, e4];
    ExtIsYaml(e0.name);
    ExtIsYaml(e1.name);
    ExtIsYaml(e2.name);
    ExtIsYaml(e3.name);
    assert IsDefinitionFile(e0) && CommandName(e0) == "git";
    assert !IsDefinitionFile(e1) && !IsDefinitionFile(e2) && !IsDefinitionFile(e4);
    assert IsDefinitionFile(e3) && CommandName(e3) == "";
    assert es[..4] == [e0, e1, e2, e3] && [e0, e1, e2, e3][..3] == [e0, e1, e2];
    assert [e0, e1, e2][..2] == [e0, e1] && [e0, e1][..1] == [e0] && [e0][..0] == [];
    assert DefinitionNames([e0]) == ["git"];
    assert DefinitionNames([e0, e1]) == ["git"];
    assert DefinitionNames([e0, e1, e2]) == ["git"];
    assert DefinitionNames([e0, e1, e2, e3]) == ["git", ""];
  }
}

=== FILE: scraper.dfy ===
/**
 * Turning a command's `--help` output into a definition: the output is cut
 * into lines as `bufio.ScanLines` does, every line is matched against the flag
 * pattern `^\s+(-[a-zA-Z0-9],? )?(--[a-zA-Z0-9-]+)\s+(.*)$`, and each
 * matching line contributes one flag, in line order.
 */
module Scraper {
  import opened Wrappers
  import opened Strings
  import opened Definitions

  // ---------------------------------------------------------------------------
  // Line splitting (bufio.ScanLines)
  // ---------------------------------------------------------------------------

  /** Drops one trailing carriage return. */
  function DropCR(s: string): string {
    if |s| > 0 && s[|s| - 1] == '\r' then s[..|s| - 1] else s
  }

  /** Index of the first newline of `s`, or `|s|` when there is none. */
  function LineEnd(s: string): (k: nat)
    ensures k <= |s|
    ensures k < |s| ==> s[k] == '\n'
  {
    NewlineFrom(s, 0)
  }

  /** Index of the first newline of `s` at or after `i`, or `|s|`. */
  function NewlineFrom(s: string, i: nat): (k: nat)
    requires i <= |s|
    ensures i <= k <= |s|
    ensures k < |s| ==> s[k] == '\n'
    decreases |s| - i
  {
    if i == |s| || s[i] == '\n' then i else NewlineFrom(s, i + 1)
  }

  /** No newline comes before the one `LineEnd` finds. */
  lemma LineEndFirst(s: string)
    ensures forall j :: 0 <= j < LineEnd(s) ==> s[j] != '\n'
  {
    NewlineFromFirst(s, 0);
  }

  lemma {:induction false} NewlineFromFirst(s: string, i: nat)
    requires i <= |s|
    ensures forall j :: i <= j < NewlineFrom(s, i) ==> s[j] != '\n'
    decreases |s| - i
  {
    if i < |s| && s[i] != '\n' {
      NewlineFromFirst(s, i + 1);
    }
  }

  /**
   * The lines a `bufio.Scanner` with `ScanLines` yields: split at each '\n',
   * one trailing '\r' removed from each line, and no empty line after a final
   * newline.
   */
  function ScanLines(text: string): seq<string>
    decreases |text|
  {
    if text == [] then []
    else
      var k := LineEnd(text);
      [DropCR(text[..k])] + (if k < |text| then ScanLines(text[k + 1..]) else [])
  }

  /**
   * Empty text has no lines and other text at least one; every line but a
   * final unterminated one uses up its newline, so there are never more lines
   * than characters.
   */
  lemma {:induction false} ScanLinesCount(text: string)
    ensures text == [] <==> ScanLines(text) == []
    ensures |ScanLines(text)| <= |text|
    decreases |text|
  {
    if text != [] {
      var k := LineEnd(text);
      var n := |ScanLines(text)|;
      if k < |text| {
        var rest := text[k + 1..];
        ScanLinesCount(rest);
        assert n == 1 + |ScanLines(rest)| by {
          ScanLinesStep(text);
        }
        assert |rest| < |text|;
      } else {
        assert n == 1 by {
          ScanLinesStep(text);
        }
      }
    }
  }

  /** No line holds a newline. */
  lemma {:induction false} ScanLinesNoNewline(text: string)
    ensures forall i :: 0 <= i < |ScanLines(text)| ==> '\n' !in ScanLines(text)[i]
    decreases |text|
  {
    if text != [] {
      var k := LineEnd(text);
      var line := text[..k];
      LineEndFirst(text);
      assert '\n' !in DropCR(line) by {
        forall j | 0 <= j < |DropCR(line)| ensures DropCR(line)[j] != '\n' { assert DropCR(line)[j] == text[j]; }
      }
      if k < |text| {
        ScanLinesNoNewline(text[k + 1..]);
      }
    }
  }

  /**
   * For text without carriage returns, the lines joined by newlines, plus the
   * final newline if the text had one, give back the text.
   */
  lemma {:induction false} ScanLinesRoundTrip(text: string)
    requires '\r' !in text
    ensures Join(ScanLines(text), "\n") + (if text != [] && text[|text| - 1] == '\n' then "\n" else "") == text
    decreases |text|, 1
  {
    if text != [] {
      var k := LineEnd(text);
      if k < |text| {
        ScanLinesRoundTripAt(text, k);
      } else {
        ScanLinesStep(text);
        NoCarriageReturnLine(text, k);
        LineEndFirst(text);
      }
    }
  }

  /** The round trip when the first line ends at the newline at `k`. */
  lemma {:induction false} ScanLinesRoundTripAt(text: string, k: nat)
    requires '\r' !in text && k == LineEnd(text) < |text|
    ensures Join(ScanLines(text), "\n") + (if text[|text| - 1] == '\n' then "\n" else "") == text
    decreases |text|, 0
  {
    var line := text[..k];
    var rest := text[k + 1..];
    var ls := ScanLines(rest);
    assert ScanLines(text) == [line] + ls by {
      ScanLinesStep(text);
      NoCarriageReturnLine(text, k);
    }
    assert text == line + "\n" + rest && '\r' !in rest by {
      SplitAtNewline(text, k);
    }
    ScanLinesRoundTrip(rest);
    ScanLinesCount(rest);
    JoinAfterLine(text, line, rest, ls);
  }

  /** Rejoining one line in front of lines that rejoin to the rest of the text. */
  lemma JoinAfterLine(text: string, line: string, rest: string, ls: seq<string>)
    requires text == line + "\n" + rest && (rest == [] <==> ls == [])
    requires Join(ls, "\n") + (if rest != [] && rest[|rest| - 1] == '\n' then "\n" else "") == rest
    ensures Join([line] + ls, "\n") + (if text[|text| - 1] == '\n' then "\n" else "") == text
  {
    if rest == [] {
      assert [line] + ls == [line];
      assert text == line + "\n";
    } else {
      var j := Join(ls, "\n");
      var t := if rest[|rest| - 1] == '\n' then "\n" else "";
      JoinCons(line, ls, "\n");
      assert text[|text| - 1] == rest[|rest| - 1];
      assert (line + "\n" + j) + t == line + "\n" + (j + t);
    }
  }

  /** One step of the scanner: the first line, then the lines of what follows its newline. */
  lemma ScanLinesStep(text: string)
    requires text != []
    ensures ScanLines(text) == [DropCR(text[..LineEnd(text)])] +
      if LineEnd(text) < |text| then ScanLines(text[LineEnd(text) + 1..]) else []
  {
  }

  /** Text splits around a newline, and what follows has no carriage return when the text has none. */
  lemma SplitAtNewline(text: string, k: nat)
    requires k < |text| && text[k] == '\n'
    ensures text == text[..k] + "\n" + text[k + 1..]
    ensures '\r' !in text ==> '\r' !in text[k + 1..]
  {
    var rest := text[k + 1..];
    if '\r' !in text {
      forall j | 0 <= j < |rest| ensures rest[j] != '\r' { assert rest[j] == text[k + 1 + j]; }
    }
  }

  /** A prefix of text without carriage returns loses nothing to `DropCR`. */
  lemma NoCarriageReturnLine(text: string, k: nat)
    requires '\r' !in text && k <= |text|
    ensures DropCR(text[..k]) == text[..k]
  {
    if k > 0 {
      assert text[..k][k - 1] == text[k - 1];
    }
  }

  // ---------------------------------------------------------------------------
  // The flag pattern
  // ---------------------------------------------------------------------------

  /** RE2's `\s`: tab, newline, form feed, carriage return, space (no vertical tab). */
  predicate IsReSpace(c: char) {
    c == '\t' || c == '\n' || c == '\U{000C}' || c == '\r' || c == ' '
  }

  /** `[a-zA-Z0-9]`. */
  predicate IsAlnum(c: char) {
    ('a' <= c <= 'z') || ('A' <= c <= 'Z') || ('0' <= c <= '9')
  }

  /** `[a-zA-Z0-9-]`: a character of a long flag's name. */
  predicate IsNameChar(c: char) {
    IsAlnum(c) || c == '-'
  }

  /** The short-option group `-[a-zA-Z0-9],? `: "-v " or "-v, ". */
  predicate IsShortOption(s: string) {
    (|s| == 3 || |s| == 4) && s[0] == '-' && IsAlnum(s[1]) && s[|s| - 1] == ' ' && (|s| == 4 ==> s[2] == ',')
  }

  /**
   * A way the pattern can match all of `line`, given by its cut points:
   * `line[..a]` is the leading `\s+`, `line[a..b]` the optional short option,
   * `line[b..c]` the long flag (group 2), `line[c..d]` the `\s+` after it and
   * `line[d..]` the description (group 3, `.` excludes newlines).
   */
  ghost predicate IsParse(line: string, a: nat, b: nat, c: nat, d: nat) {
    && 0 < a <= b && b + 3 <= c < d <= |line|
    && (forall k :: 0 <= k < a ==> IsReSpace(line[k]))
    && (b == a || IsShortOption(line[a..b]))
    && line[b] == '-' && line[b + 1] == '-'
    && (forall k :: b + 2 <= k < c ==> IsNameChar(line[k]))
    && (forall k :: c <= k < d ==> IsReSpace(line[k]))
    && (forall k :: d <= k < |line| ==> line[k] != '\n')
  }

  /** The two captured groups of a match: the long flag and the description. */
  datatype FlagMatch = FlagMatch(long: string, description: string)

  /** The pattern matches `line` with capture groups `m`. */
  ghost predicate ParsesAs(line: string, m: FlagMatch) {
    exists a: nat, b: nat, c: nat, d: nat :: IsParse(line, a, b, c, d) && m.long == line[b..c] && m.description == line[d..]
  }

  /** End of the run of `\s` characters starting at `i`. */
  function SpaceEnd(s: string, i: nat): (j: nat)
    requires i <= |s|
    ensures i <= j <= |s|
    decreases |s| - i
  {
    if i < |s| && IsReSpace(s[i]) then SpaceEnd(s, i + 1) else i
  }

  /** `SpaceEnd` stops at the first character from `i` on that is not `\s`. */
  lemma {:induction false} SpaceEndSpec(s: string, i: nat)
    requires i <= |s|
    ensures forall k :: i <= k < SpaceEnd(s, i) ==> IsReSpace(s[k])
    ensures SpaceEnd(s, i) == |s| || !IsReSpace(s[SpaceEnd(s, i)])
    decreases |s| - i
  {
    if i < |s| && IsReSpace(s[i]) {
      SpaceEndSpec(s, i + 1);
    }
  }

  /** A run of `\s` from `i` to `j` that cannot be extended is the one `SpaceEnd` finds. */
  lemma {:induction false} SpaceEndAt(s: string, i: nat, j: nat)
    requires i <= j <= |s|
    requires forall k :: i <= k < j ==> IsReSpace(s[k])
    requires j == |s| || !IsReSpace(s[j])
    ensures SpaceEnd(s, i) == j
    decreases j - i
  {
    if i < j {
      SpaceEndAt(s, i + 1, j);
    }
  }

  /** End of the run of `[a-zA-Z0-9-]` characters starting at `i`. */
  function NameEnd(s: string, i: nat): (j: nat)
    requires i <= |s|
    ensures i <= j <= |s|
    decreases |s| - i
  {
    if i < |s| && IsNameChar(s[i]) then NameEnd(s, i + 1) else i
  }

  /** `NameEnd` stops at the first character from `i` on that is not a name character. */
  lemma {:induction false} NameEndSpec(s: string, i: nat)
    requires i <= |s|
    ensures forall k :: i <= k < NameEnd(s, i) ==> IsNameChar(s[k])
    ensures NameEnd(s, i) == |s| || !IsNameChar(s[NameEnd(s, i)])
    decreases |s| - i
  {
    if i < |s| && IsNameChar(s[i]) {
      NameEndSpec(s, i + 1);
    }
  }

  /** A run of name characters from `i` to `j` that cannot be extended is the one `NameEnd` finds. */
  lemma {:induction false} NameEndAt(s: string, i: nat, j: nat)
    requires i <= j <= |s|
    requires forall k :: i <= k < j ==> IsNameChar(s[k])
    requires j == |s| || !IsNameChar(s[j])
    ensures NameEnd(s, i) == j
    decreases j - i
  {
    if i < j {
      NameEndAt(s, i + 1, j);
    }
  }

  /** Where the optional short-option group ends when it is tried at `a` (`a` itself when it does not match). */
  function ShortOptionEnd(s: string, a: nat): (b: nat)
    requires a <= |s|
    ensures b == a || (a < b <= |s| && IsShortOption(s[a..b]))
  {
    if a + 2 < |s| && s[a] == '-' && IsAlnum(s[a + 1]) then
      if s[a + 2] == ' ' then a + 3
      else if s[a + 2] == ',' && a + 3 < |s| && s[a + 3] == ' ' then a + 4
      else a
    else a
  }

  /**
   * The flag pattern as a deterministic, leftmost-first matcher: every
   * quantifier takes the longest run it can, so the description starts after
   * the whole white-space run that follows the long flag.
   */
  function MatchFlagLine(line: string): (r: Option<FlagMatch>)
    ensures r.Some? ==> 2 < |r.value.long| && |r.value.long| + |r.value.description| < |line|
  {
    var a := SpaceEnd(line, 0);
    var b := ShortOptionEnd(line, a);
    if a == 0 || b + 2 > |line| || line[b] != '-' || line[b + 1] != '-' then None
    else
      var c := NameEnd(line, b + 2);
      var d := SpaceEnd(line, c);
      if c == b + 2 || d == c || '\n' in line[d..] then None
      else Some(FlagMatch(line[b..c], line[d..]))
  }

  /**
   * Soundness: a match is a way the pattern matches the whole line, and the
   * captured description does not start with white space.
   */
  lemma MatchFlagLineSound(line: string)
    ensures MatchFlagLine(line).Some? ==> ParsesAs(line, MatchFlagLine(line).value)
    ensures MatchFlagLine(line).Some? ==>
      var desc := MatchFlagLine(line).value.description; desc == [] || !IsReSpace(desc[0])
  {
    if MatchFlagLine(line).Some? {
      var a := SpaceEnd(line, 0);
      var b := ShortOptionEnd(line, a);
      var c := NameEnd(line, b + 2);
      var d := SpaceEnd(line, c);
      MatchedCutPoints(line, a, b, c, d);
      assert MatchFlagLine(line).value == FlagMatch(line[b..c], line[d..]);
      assert line[d..] == [] || line[d..][0] == line[d];
    }
  }

  /** The cut points the matcher accepts form a parse, and the gap ends at a character that is not `\s`. */
  lemma MatchedCutPoints(line: string, a: nat, b: nat, c: nat, d: nat)
    requires 0 < a && a == SpaceEnd(line, 0) && b == ShortOptionEnd(line, a)
    requires b + 2 <= |line| && line[b] == '-' && line[b + 1] == '-'
    requires c == NameEnd(line, b + 2) && d == SpaceEnd(line, c)
    requires b + 2 < c < d && '\n' !in line[d..]
    ensures IsParse(line, a, b, c, d)
    ensures d == |line| || !IsReSpace(line[d])
  {
    SpaceEndSpec(line, 0);
    NameEndSpec(line, b + 2);
    SpaceEndSpec(line, c);
    forall k | d <= k < |line| ensures line[k] != '\n' { assert line[k] == line[d..][k - d]; }
  }

  /**
   * Completeness and greediness: whenever the pattern can match `line` at all,
   * the matcher succeeds, captures the same long flag, and its description is
   * no longer than the one that parse would capture (the gap is taken whole).
   */
  lemma MatchFlagLineComplete(line: string, a: nat, b: nat, c: nat, d: nat)
    requires IsParse(line, a, b, c, d)
    ensures MatchFlagLine(line).Some?
    ensures MatchFlagLine(line).value.long == line[b..c]
    ensures |MatchFlagLine(line).value.description| <= |line| - d
  {
    ParseLeadingSpace(line, a, b, c, d);
    ParseShortOption(line, a, b, c, d);
    ParseLongFlag(line, a, b, c, d);
    ParseGap(line, a, b, c, d);
  }

  /** The leading `\s+` of any parse is the whole leading white-space run. */
  lemma ParseLeadingSpace(line: string, a: nat, b: nat, c: nat, d: nat)
    requires IsParse(line, a, b, c, d)
    ensures SpaceEnd(line, 0) == a
  {
    assert !IsReSpace(line[a]) by {
      if b > a { assert line[a..b][0] == line[a]; }
    }
    SpaceEndAt(line, 0, a);
  }

  /** The short-option group is matched exactly as any parse has it. */
  lemma ParseShortOption(line: string, a: nat, b: nat, c: nat, d: nat)
    requires IsParse(line, a, b, c, d)
    ensures ShortOptionEnd(line, a) == b
  {
    if b == a {
      assert !IsAlnum(line[a + 1]);
    } else {
      var g := line[a..b];
      assert line[a] == g[0] && line[a + 1] == g[1] && line[a + 2] == g[2];
      if b == a + 4 { assert line[a + 3] == g[3]; }
    }
  }

  /** The long flag of any parse is the whole run of name characters after "--". */
  lemma ParseLongFlag(line: string, a: nat, b: nat, c: nat, d: nat)
    requires IsParse(line, a, b, c, d)
    ensures NameEnd(line, b + 2) == c
  {
    assert !IsNameChar(line[c]);
    NameEndAt(line, b + 2, c);
  }

  /** The gap is taken whole: the description starts at or after where any parse starts it, and holds no newline. */
  lemma ParseGap(line: string, a: nat, b: nat, c: nat, d: nat)
    requires IsParse(line, a, b, c, d)
    ensures d <= SpaceEnd(line, c) && '\n' !in line[SpaceEnd(line, c)..]
  {
    var d' := SpaceEnd(line, c);
    SpaceEndSpec(line, c);
    assert '\n' !in line[d'..] by {
      forall k | 0 <= k < |line| - d' ensures line[d'..][k] != '\n' { assert line[d'..][k] == line[d' + k]; }
    }
  }

  /**
   * A parse whose gap cannot be extended is exactly the match: the greedy
   * `\s+` before `(.*)` leaves the description starting at the first
   * character that is not white space.
   */
  lemma MatchFlagLineMaximal(line: string, a: nat, b: nat, c: nat, d: nat)
    requires IsParse(line, a, b, c, d)
    requires d == |line| || !IsReSpace(line[d])
    ensures MatchFlagLine(line) == Some(FlagMatch(line[b..c], line[d..]))
  {
    ParseLeadingSpace(line, a, b, c, d);
    ParseShortOption(line, a, b, c, d);
    ParseLongFlag(line, a, b, c, d);
    SpaceEndAt(line, c, d);
    assert '\n' !in line[d..] by {
      forall k | 0 <= k < |line| - d ensures line[d..][k] != '\n' { assert line[d..][k] == line[d + k]; }
    }
    MatchFlagLineAt(line, a, b, c, d);
  }

  /** Unfolding the matcher at given cut points. */
  lemma MatchFlagLineAt(line: string, a: nat, b: nat, c: nat, d: nat)
    requires 0 < a <= b && b + 2 < c < d <= |line|
    requires SpaceEnd(line, 0) == a && ShortOptionEnd(line, a) == b
    requires NameEnd(line, b + 2) == c && line[b] == '-' && line[b + 1] == '-'
    requires SpaceEnd(line, c) == d && '\n' !in line[d..]
    ensures MatchFlagLine(line) == Some(FlagMatch(line[b..c], line[d..]))
  {
  }

  /** Both directions: a line yields a flag exactly when the pattern can match it. */
  lemma MatchFlagLineIff(line: string)
    ensures MatchFlagLine(line).Some? <==> exists a: nat, b: nat, c: nat, d: nat :: IsParse(line, a, b, c, d)
  {
    if exists a: nat, b: nat, c: nat, d: nat :: IsParse(line, a, b, c, d) {
      var a: nat, b: nat, c: nat, d: nat :| IsParse(line, a, b, c, d);
      MatchFlagLineComplete(line, a, b, c, d);
    }
    MatchFlagLineSound(line);
  }

  // ---------------------------------------------------------------------------
  // Building the definition
  // ---------------------------------------------------------------------------

  /** The description every scraped definition carries. */
  const GeneratedDescription: string := "Auto-generated from --help"

  /** The flag a matching line contributes: type "string" by default. */
  function FlagOf(m: FlagMatch): Flag {
    Flag(m.long, m.description, "string")
  }

  /** The flags of `lines`, one per matching line, in line order. */
  function LineFlags(lines: seq<string>): (flags: seq<Flag>)
    ensures |flags| <= |lines|
    decreases |lines|
  {
    if lines == [] then [] else LineFlag(lines[0]) + LineFlags(lines[1..])
  }

  /** The flag one line contributes: none, or the one its match describes. */
  function LineFlag(line: string): seq<Flag> {
    match MatchFlagLine(line)
    case None => []
    case Some(m) => [FlagOf(m)]
  }

  /**
   * `f` applied to each line, the results concatenated in line order: the
   * shape of `LineFlags`, with the per-line step left abstract so that laws
   * about the order are proved without unfolding the matcher.
   */
  function ConcatMap(f: string -> seq<Flag>, lines: seq<string>): seq<Flag>
    decreases |lines|
  {
    if lines == [] then [] else f(lines[0]) + ConcatMap(f, lines[1..])
  }

  lemma {:induction false} ConcatMapAppend(f: string -> seq<Flag>, xs: seq<string>, ys: seq<string>)
    ensures ConcatMap(f, xs + ys) == ConcatMap(f, xs) + ConcatMap(f, ys)
    decreases |xs|
  {
    if xs == [] {
      assert xs + ys == ys;
    } else {
      assert (xs + ys)[1..] == xs[1..] + ys;
      ConcatMapAppend(f, xs[1..], ys);
    }
  }

  lemma {:induction false} LineFlagsConcatMap(lines: seq<string>)
    ensures LineFlags(lines) == ConcatMap(LineFlag, lines)
    decreases |lines|
  {
    if lines != [] {
      LineFlagsConcatMap(lines[1..]);
    }
  }

  /** Flags follow line order: the flags of two runs of lines are the flags of each, concatenated. */
  lemma LineFlagsAppend(xs: seq<string>, ys: seq<string>)
    ensures LineFlags(xs + ys) == LineFlags(xs) + LineFlags(ys)
  {
    LineFlagsConcatMap(xs + ys);
    LineFlagsConcatMap(xs);
    LineFlagsConcatMap(ys);
    ConcatMapAppend(LineFlag, xs, ys);
  }

  /** Scanning one more line appends its flag, if it has one. */
  lemma LineFlagsSnoc(xs: seq<string>, line: string)
    ensures LineFlags(xs + [line]) ==
      LineFlags(xs) + if MatchFlagLine(line).Some? then [FlagOf(MatchFlagLine(line).value)] else []
  {
    LineFlagsAppend(xs, [line]);
    assert [line][1..] == [];
  }

  /**
   * Every flag comes from a matching line (type "string", name and description
   * its captures), and every matching line gives a flag; duplicates are kept.
   */
  lemma {:induction false} LineFlagsSpec(lines: seq<string>)
    ensures forall f :: f in LineFlags(lines) ==>
      f.valueType == "string" && exists i :: 0 <= i < |lines| && MatchFlagLine(lines[i]) == Some(FlagMatch(f.name, f.description))
    ensures forall i :: 0 <= i < |lines| && MatchFlagLine(lines[i]).Some? ==> FlagOf(MatchFlagLine(lines[i]).value) in LineFlags(lines)
    decreases |lines|
  {
    if lines != [] {
      LineFlagsSpec(lines[1..]);
      forall i | 1 <= i < |lines| ensures lines[i] == lines[1..][i - 1] { }
      forall f | f in LineFlags(lines)
        ensures f.valueType == "string" && exists i :: 0 <= i < |lines| && MatchFlagLine(lines[i]) == Some(FlagMatch(f.name, f.description))
      {
        if f !in LineFlags(lines[1..]) {
          assert MatchFlagLine(lines[0]) == Some(FlagMatch(f.name, f.description));
        } else {
          var j :| 0 <= j < |lines[1..]| && MatchFlagLine(lines[1..][j]) == Some(FlagMatch(f.name, f.description));
          assert lines[j + 1] == lines[1..][j];
        }
      }
    }
  }

  /**
   * `parseHelpOutput`: a definition named `name` with the generated
   * description, no subcommands, and one flag per matching line of `text`,
   * appended in line order.
   */
  method ParseHelpOutput(name: string, text: string) returns (def: CommandDefinition)
    ensures def.name == name && def.description == GeneratedDescription
    ensures def.subcommands == [] && def.args == []
    ensures def.flags == LineFlags(ScanLines(text))
    ensures |def.flags| <= |ScanLines(text)|
  {
    def := CommandDefinition(name, GeneratedDescription, [], [], []);
    var lines := ScanLines(text);
    for i := 0 to |lines|
      invariant def.name == name && def.description == GeneratedDescription
      invariant def.subcommands == [] && def.args == []
      invariant def.flags == LineFlags(lines[..i])
    {
      var m := MatchFlagLine(lines[i]);
      assert lines[..i + 1] == lines[..i] + [lines[i]];
      LineFlagsSnoc(lines[..i], lines[i]);
      if m.Some? {
        def := def.(flags := def.flags + [FlagOf(m.value)]);
      }
    }
    assert lines[..|lines|] == lines;
  }

  /** Why a scrape fails: the help command could not run, or the result could not be saved. */
  datatype ScrapeError = ExecutionFailed | SaveFailed

  /**
   * `Scrape`, with the run of `name --help` and the save of the result given as
   * their outcomes: the captured output (standard output and standard error
   * together) is parsed, and the definition is returned only once saved.
   * `helpOutput` is `None` for any error `cmd.Run` reports, which includes a
   * command that runs but exits with a non-zero status: its output is then
   * discarded, so a tool whose `--help` exits non-zero is never scraped.
   */
  method Scrape(name: string, helpOutput: Option<string>, saved: bool) returns (r: Result<CommandDefinition, ScrapeError>)
    ensures helpOutput.None? ==> r == Err(ExecutionFailed)
    ensures helpOutput.Some? && !saved ==> r == Err(SaveFailed)
    ensures helpOutput.Some? && saved ==>
      r.Ok? && r.value.name == name && r.value.description == GeneratedDescription
      && r.value.flags == LineFlags(ScanLines(helpOutput.value))
      && r.value.subcommands == [] && r.value.args == []
  {
    if helpOutput.None? {
      return Err(ExecutionFailed);
    }
    var def := ParseHelpOutput(name, helpOutput.value);
    if !saved {
      return Err(SaveFailed);
    }
    r := Ok(def);
  }

  /** The flag-line shape the scraper is written for. */
  const SampleLine: string := "  -f, --flag    Description"

  /** The leading white space and the short option of `SampleLine`. */
  lemma SampleLineLead()
    ensures SpaceEnd(SampleLine, 0) == 2 && ShortOptionEnd(SampleLine, 2) == 6
  {
    var l := SampleLine;
    assert l[0] == ' ' && l[1] == ' ' && l[2] == '-' && l[3] == 'f' && l[4] == ',' && l[5] == ' ';
  }

  /** The long flag of `SampleLine` ends at index 12. */
  lemma SampleLineName()
    ensures NameEnd(SampleLine, 8) == 12
  {
    var l := SampleLine;
    assert l[8] == 'f' && l[9] == 'l' && l[10] == 'a' && l[11] == 'g' && l[12] == ' ';
    assert NameEnd(l, 8) == NameEnd(l, 9) == NameEnd(l, 10) == NameEnd(l, 11) == NameEnd(l, 12);
  }

  /** The gap of `SampleLine` runs from 12 to 16. */
  lemma SampleLineGap()
    ensures SpaceEnd(SampleLine, 12) == 16
  {
    var l := SampleLine;
    assert l[12] == ' ' && l[13] == ' ' && l[14] == ' ' && l[15] == ' ' && l[16] == 'D';
    assert SpaceEnd(l, 12) == SpaceEnd(l, 13) == SpaceEnd(l, 14) == SpaceEnd(l, 15) == SpaceEnd(l, 16);
  }

  /** The long-flag text and the description of `SampleLine`. */
  lemma SampleLineGroups()
    ensures SampleLine[6] == '-' && SampleLine[7] == '-'
    ensures SampleLine[6..12] == "--flag"
    ensures SampleLine[16..] == "Description" && '\n' !in SampleLine[16..]
  {
    var l := SampleLine;
    assert l[6] == '-';
    assert l[7] == '-';
    assert SampleLine[6..12] == "--flag";
    assert SampleLine[16..] == "Description";
  }

  /** The sample line yields the long flag and the description after the whole gap. */
  lemma SampleLineExample()
    ensures MatchFlagLine(SampleLine) == Some(FlagMatch("--flag", "Description"))
  {
    SampleLineLead();
    SampleLineName();
    SampleLineGap();
    SampleLineGroups();
    MatchFlagLineAt(SampleLine, 2, 6, 12, 16);
  }

  /** A GNU-style help line: short option, long option, aligned description. */
  const VerboseLine: string := "  -v, --verbose    Enable verbose output"

  /** The leading white space and the short option of `VerboseLine`. */
  lemma VerboseLineLead()
    ensures SpaceEnd(VerboseLine, 0) == 2 && ShortOptionEnd(VerboseLine, 2) == 6
  {
    var l := VerboseLine;
    assert l[0] == ' ' && l[1] == ' ' && l[2] == '-' && l[3] == 'v' && l[4] == ',' && l[5] == ' ';
  }

  /** The "--" of `VerboseLine`'s long flag. */
  lemma VerboseLineDashes()
    ensures VerboseLine[6] == '-' && VerboseLine[7] == '-'
  {
    var l := VerboseLine;
    assert l[6] == '-';
    assert l[7] == '-';
  }

  /** The long flag of `VerboseLine` ends at index 15. */
  lemma VerboseLineName()
    ensures NameEnd(VerboseLine, 8) == 15
  {
    var l := VerboseLine;
    VerboseLineLetters();
    assert l[15] == ' ';
    assert NameEnd(l, 8) == NameEnd(l, 9) == NameEnd(l, 10) == NameEnd(l, 11) == NameEnd(l, 12)
        == NameEnd(l, 13) == NameEnd(l, 14) == NameEnd(l, 15);
  }

  /** The gap of `VerboseLine` runs from 15 to 19. */
  lemma VerboseLineGap()
    ensures SpaceEnd(VerboseLine, 15) == 19
  {
    var l := VerboseLine;
    assert l[15] == ' ' && l[16] == ' ' && l[17] == ' ' && l[18] == ' ' && l[19] == 'E';
    assert SpaceEnd(l, 15) == SpaceEnd(l, 16) == SpaceEnd(l, 17) == SpaceEnd(l, 18) == SpaceEnd(l, 19);
  }

  /** The letters of `VerboseLine`'s long flag after its "--". */
  lemma VerboseLineLetters()
    ensures VerboseLine[8] == 'v' && VerboseLine[9] == 'e' && VerboseLine[10] == 'r' && VerboseLine[11] == 'b'
    ensures VerboseLine[12] == 'o' && VerboseLine[13] == 's' && VerboseLine[14] == 'e'
  {
    var l := VerboseLine;
    assert l[8] == 'v' && l[9] == 'e' && l[10] == 'r' && l[11] == 'b';
    assert l[12] == 'o' && l[13] == 's' && l[14] == 'e';
  }

  /** The long-flag text of `VerboseLine`. */
  lemma VerboseLineLong()
    ensures VerboseLine[6..15] == "--verbose"
  {
    VerboseLineDashes();
    VerboseLineLetters();
    var g := VerboseLine[6..15];
    assert g[0] == '-' && g[1] == '-' && g[2] == 'v' && g[3] == 'e' && g[4] == 'r';
    assert g[5] == 'b' && g[6] == 'o' && g[7] == 's' && g[8] == 'e';
    assert g == ['-', '-', 'v', 'e', 'r', 'b', 'o', 's', 'e'];
  }

  /** The description text of `VerboseLine`. */
  lemma VerboseLineDescription()
    ensures VerboseLine[19..] == "Enable verbose output" && '\n' !in VerboseLine[19..]
  {
    assert VerboseLine[19..] == "Enable verbose output";
  }

  /** The GNU-style line yields the long flag and the description after the whole gap. */
  lemma VerboseLineExample()
    ensures MatchFlagLine(VerboseLine) == Some(FlagMatch("--verbose", "Enable verbose output"))
  {
    VerboseLineLead();
    VerboseLineDashes();
    VerboseLineName();
    VerboseLineGap();
    VerboseLineLong();
    VerboseLineDescription();
    MatchFlagLineAt(VerboseLine, 2, 6, 15, 19);
  }

  /** A line must start with white space. */
  lemma NoLeadingSpaceExample()
    ensures MatchFlagLine("--verbose x").None?
  {
    assert SpaceEnd("--verbose x", 0) == 0;
  }

  /** No line that does not start with white space is a flag line. */
  lemma NoLeadingSpace(line: string)
    requires line == [] || !IsReSpace(line[0])
    ensures MatchFlagLine(line).None?
  {
    assert SpaceEnd(line, 0) == 0;
  }

  /** '=' is not a name character, and the long flag must be followed by white space. */
  lemma ValueSyntaxExample()
    ensures MatchFlagLine("  --out=FILE x").None?
  {
    var l := "  --out=FILE x";
    assert SpaceEnd(l, 0) == 2 && ShortOptionEnd(l, 2) == 2;
    assert NameEnd(l, 4) == 7 && SpaceEnd(l, 7) == 7;
  }

  /** The short option is followed by exactly one space. */
  lemma TwoSpacesExample()
    ensures MatchFlagLine("  -v,  --verbose x").None?
  {
    var l := "  -v,  --verbose x";
    assert l[0] == ' ' && l[1] == ' ' && l[2] == '-' && l[3] == 'v' && l[4] == ',' && l[5] == ' ' && l[6] == ' ';
    assert SpaceEnd(l, 0) == 2;
    assert ShortOptionEnd(l, 2) == 6;
  }

  /** A subcommand line has no long flag, so it yields nothing. */
  lemma SubcommandLineExample()
    ensures MatchFlagLine("  init    Initialize").None?
  {
    var l := "  init    Initialize";
    assert l[0] == ' ' && l[1] == ' ' && l[2] == 'i';
    assert SpaceEnd(l, 0) == SpaceEnd(l, 1) == SpaceEnd(l, 2) == 2;
    assert ShortOptionEnd(l, 2) == 2;
  }

}

=== FILE: strings.dfy ===
/**
 * The parts of Go's `strings` and `unicode` packages that the command builder
 * relies on, restricted to ASCII: every character counts as one unit.
 */
module Strings {

  /** `unicode.IsSpace` on the ASCII range: tab, newline, vertical tab, form feed, carriage return, space. */
  predicate IsSpace(c: char) {
    c == ' ' || c == '\t' || c == '\n' || c == '\U{000B}' || c == '\U{000C}' || c == '\r'
  }

  /** True when no character of `s` is white space. */
  predicate NoSpace(s: string) {
    forall k :: 0 <= k < |s| ==> !IsSpace(s[k])
  }

  /** `strings.HasPrefix`. */
  predicate HasPrefix(s: string, prefix: string) {
    prefix <= s
  }

  /** `strings.HasSuffix`. */
  predicate HasSuffix(s: string, suffix: string) {
    |suffix| <= |s| && s[|s| - |suffix|..] == suffix
  }

  /** `strings.Join`: the elements of `xs` with `sep` between each neighbouring pair. */
  function Join(xs: seq<string>, sep: string): string
    decreases |xs|
  {
    if |xs| == 0 then ""
    else if |xs| == 1 then xs[0]
    else xs[0] + sep + Join(xs[1..], sep)
  }

  /** Putting one element in front of a nonempty list adds that element and one separator. */
  lemma JoinCons(x: string, xs: seq<string>, sep: string)
    requires xs != []
    ensures Join([x] + xs, sep) == x + sep + Join(xs, sep)
  {
    assert ([x] + xs)[0] == x && ([x] + xs)[1..] == xs;
  }

  /** The joined string starts with the first element and ends with the last. */
  lemma {:induction false} JoinEnds(xs: seq<string>, sep: string)
    requires xs != []
    ensures HasPrefix(Join(xs, sep), xs[0]) && HasSuffix(Join(xs, sep), xs[|xs| - 1])
    decreases |xs|
  {
    if |xs| > 1 {
      JoinEnds(xs[1..], sep);
    }
  }

  /** Appending one element to a nonempty list adds exactly one separator and that element. */
  lemma {:induction false} JoinSnoc(xs: seq<string>, x: string, sep: string)
    requires xs != []
    ensures Join(xs + [x], sep) == Join(xs, sep) + sep + x
    decreases |xs|
  {
    if |xs| == 1 {
      assert xs + [x] == [xs[0], x];
    } else {
      assert (xs + [x])[1..] == xs[1..] + [x];
      JoinSnoc(xs[1..], x, sep);
    }
  }

  /** Growing the last element by `sep + b` grows the joined text by exactly `sep + b`. */
  lemma JoinExtendLast(xs: seq<string>, a: string, b: string, sep: string)
    ensures Join(xs + [a + sep + b], sep) == Join(xs + [a], sep) + sep + b
  {
    if xs == [] {
      assert [] + [a + sep + b] == [a + sep + b];
      assert [] + [a] == [a];
    } else {
      JoinSnoc(xs, a + sep + b, sep);
      JoinSnoc(xs, a, sep);
    }
  }

  /** Length of the leading run of non-space characters of `s`. */
  function WordEnd(s: string): (k: nat)
    ensures k <= |s|
    ensures NoSpace(s[..k])
    ensures k == |s| || IsSpace(s[k])
    decreases |s|
  {
    if s == [] || IsSpace(s[0]) then 0 else 1 + WordEnd(s[1..])
  }

  /** The first word of `s`: everything before its first space. */
  function FirstWord(s: string): string {
    s[..WordEnd(s)]
  }

  /**
   * `strings.Fields`: the maximal runs of non-space characters of `s`, in order.
   * Every field is nonempty and holds no space.
   */
  function Fields(s: string): (ws: seq<string>)
    ensures forall i :: 0 <= i < |ws| ==> ws[i] != [] && NoSpace(ws[i])
    decreases |s|
  {
    if s == [] then []
    else if IsSpace(s[0]) then Fields(s[1..])
    else
      var k := WordEnd(s);
      [s[..k]] + Fields(s[k..])
  }

  /** A word followed by nothing or by a space ends exactly where the word ends. */
  lemma {:induction false} WordEndOfWord(w: string, rest: string)
    requires NoSpace(w)
    requires rest == [] || IsSpace(rest[0])
    ensures WordEnd(w + rest) == |w|
    decreases |w|
  {
    if w != [] {
      assert (w + rest)[1..] == w[1..] + rest;
      WordEndOfWord(w[1..], rest);
    } else {
      assert w + rest == rest;
    }
  }

  /** The first word of `w + rest` is `w` when `w` is a word and `rest` starts with a space, or is empty. */
  lemma FirstWordOf(w: string, rest: string)
    requires NoSpace(w)
    requires rest == [] || IsSpace(rest[0])
    ensures FirstWord(w + rest) == w
  {
    WordEndOfWord(w, rest);
    assert (w + rest)[..|w|] == w;
  }

  /** True when every character of `s` is white space. */
  predicate AllSpace(s: string) {
    forall k :: 0 <= k < |s| ==> IsSpace(s[k])
  }

  /** `gaps[0] + words[0] + gaps[1] + ... + words[n - 1] + gaps[n]`. */
  function Spaced(gaps: seq<string>, words: seq<string>): string
    requires |gaps| == |words| + 1
    decreases |words|
  {
    if words == [] then gaps[0] else gaps[0] + words[0] + Spaced(gaps[1..], words[1..])
  }

  /** Leading white space contributes no field. */
  lemma {:induction false} FieldsSkipSpace(g: string, t: string)
    requires AllSpace(g)
    ensures Fields(g + t) == Fields(t)
    decreases |g|
  {
    if g == [] {
      assert g + t == t;
    } else {
      assert (g + t)[0] == g[0];
      assert (g + t)[1..] == g[1..] + t;
      FieldsSkipSpace(g[1..], t);
    }
  }

  /** Text made only of white space has no fields. */
  lemma {:induction false} FieldsAllSpace(s: string)
    requires AllSpace(s)
    ensures Fields(s) == []
  {
    FieldsSkipSpace(s, []);
    assert s + [] == s;
  }

  /** A word followed by nothing or by white space is the first field, and the rest follow. */
  lemma FieldsWord(w: string, rest: string)
    requires w != [] && NoSpace(w)
    requires rest == [] || IsSpace(rest[0])
    ensures Fields(w + rest) == [w] + Fields(rest)
  {
    var s := w + rest;
    assert s[0] == w[0];
    WordEndOfWord(w, rest);
    assert s[..|w|] == w;
    assert s[|w|..] == rest;
  }

  /** Interleaved text starts with white space, or is empty, when its first gap is white space and nonempty before a word. */
  lemma SpacedStart(gaps: seq<string>, words: seq<string>)
    requires |gaps| == |words| + 1 && AllSpace(gaps[0])
    requires words != [] ==> gaps[0] != []
    ensures Spaced(gaps, words) == [] || IsSpace(Spaced(gaps, words)[0])
  {
    if words != [] {
      assert Spaced(gaps, words)[0] == gaps[0][0];
    }
  }

  /**
   * `strings.Fields` recovers the words from any text that interleaves them with
   * white space: any amount of it between two words (at least one character),
   * and any amount, possibly none, before the first word and after the last.
   */
  lemma {:induction false} FieldsOfSpaced(gaps: seq<string>, words: seq<string>)
    requires |gaps| == |words| + 1
    requires forall i :: 0 <= i < |gaps| ==> AllSpace(gaps[i])
    requires forall i :: 0 < i < |words| ==> gaps[i] != []
    requires forall i :: 0 <= i < |words| ==> words[i] != [] && NoSpace(words[i])
    ensures Fields(Spaced(gaps, words)) == words
    decreases |words|
  {
    if words == [] {
      FieldsAllSpace(gaps[0]);
    } else {
      var rest := Spaced(gaps[1..], words[1..]);
      assert Spaced(gaps, words) == gaps[0] + (words[0] + rest);
      FieldsSkipSpace(gaps[0], words[0] + rest);
      SpacedStart(gaps[1..], words[1..]);
      FieldsWord(words[0], rest);
      FieldsOfSpaced(gaps[1..], words[1..]);
      assert words == [words[0]] + words[1..];
    }
  }

  /** One more white-space character in front of the first gap puts it in front of the whole text. */
  lemma SpacedConsGap(c: char, gaps: seq<string>, words: seq<string>)
    requires |gaps| == |words| + 1
    ensures Spaced([[c] + gaps[0]] + gaps[1..], words) == [c] + Spaced(gaps, words)
  {
    var gaps' := [[c] + gaps[0]] + gaps[1..];
    assert gaps'[0] == [c] + gaps[0];
    if words != [] {
      assert gaps'[1..] == gaps[1..];
      var rest := words[0] + Spaced(gaps[1..], words[1..]);
      assert Spaced(gaps', words) == ([c] + gaps[0]) + rest;
      assert Spaced(gaps, words) == gaps[0] + rest;
    }
  }

  /**
   * Every text is its fields interleaved with white space: there are gaps,
   * nonempty between two fields, that put the fields back together into the
   * text. With `FieldsOfSpaced` this determines `Fields` completely.
   */
  lemma {:induction false} FieldsSplit(s: string) returns (gaps: seq<string>)
    ensures |gaps| == |Fields(s)| + 1
    ensures forall i :: 0 <= i < |gaps| ==> AllSpace(gaps[i])
    ensures forall i :: 0 < i < |Fields(s)| ==> gaps[i] != []
    ensures Spaced(gaps, Fields(s)) == s
    decreases |s|
  {
    if s == [] {
      gaps := [[]];
    } else if IsSpace(s[0]) {
      var tail := FieldsSplit(s[1..]);
      gaps := [[s[0]] + tail[0]] + tail[1..];
      SpacedConsGap(s[0], tail, Fields(s[1..]));
      assert [s[0]] + s[1..] == s;
      assert AllSpace(gaps[0]) by {
        forall k | 0 <= k < |gaps[0]| ensures IsSpace(gaps[0][k]) {
          if k > 0 { assert gaps[0][k] == tail[0][k - 1]; }
        }
      }
      assert forall i :: 0 < i < |gaps| ==> gaps[i] == tail[i];
    } else {
      var k := WordEnd(s);
      var w, rest := s[..k], s[k..];
      assert Fields(s) == [w] + Fields(rest);
      var tail := FieldsSplit(rest);
      var ws := Fields(rest);
      gaps := [[]] + tail;
      assert gaps[1..] == tail;
      assert Spaced(gaps, [w] + ws) == [] + w + Spaced(tail, ws) by {
        assert ([w] + ws)[0] == w && ([w] + ws)[1..] == ws;
      }
      assert w + rest == s;
      assert forall i :: 0 < i < |gaps| ==> gaps[i] == tail[i - 1];
    }
  }

  /** Joining words with single spaces and splitting into fields gives the words back. */
  lemma {:induction false} FieldsOfJoin(ws: seq<string>)
    requires forall i :: 0 <= i < |ws| ==> ws[i] != [] && NoSpace(ws[i])
    ensures Fields(Join(ws, " ")) == ws
    decreases |ws|
  {
    if |ws| == 0 {
    } else if |ws| == 1 {
      var w := ws[0];
      WordEndOfWord(w, []);
      assert w + [] == w;
      assert w[..|w|] == w && w[|w|..] == [];
    } else {
      var w, rest := ws[0], Join(ws[1..], " ");
      var s := w + " " + rest;
      assert Join(ws, " ") == s;
      WordEndOfWord(w, " " + rest);
      assert s == w + (" " + rest);
      assert s[..|w|] == w;
      assert s[|w|..] == " " + rest;
      assert (" " + rest)[1..] == rest;
      FieldsOfJoin(ws[1..]);
      assert Fields(s) == [w] + Fields(" " + rest);
      assert ws == [w] + ws[1..];
    }
  }
}

=== FILE: wrappers.dfy ===
/** Option and Result: the model's stand-ins for Go's nil pointers and (value, error) pairs. */
module Wrappers {

  /** A possibly missing value: `None` plays the part of a nil pointer. */
  datatype Option<+T> = None | Some(value: T)

  /** A value or the error that prevented it. */
  datatype Result<+T, +E> = Ok(value: T) | Err(error: E)
}
